=== FILE: README.md ===
# tunemate client core in Dafny

This project models the stateful and data-shaping core of the tunemate mobile
client, a music-recommendation app built on the Spotify Web API:

- the **playback session** (`PlaybackProvider`): the current track, the
  play/pause flag, the queue and its cursor, the reported position and
  duration, the full-screen flag, and the commands that change them;
- the **track records**: a track is flattened into a backend row with
  comma-joined `artistIds` / `artistNames` columns, and the two converters
  `convertToSpotifyTrack2` / `convertToSpotifyTrack` rebuild it with
  `split(',')`, `trim` and a positional zip;
- the **liked songs**: the service's server requests and device cache, and
  the shared context's in-memory list;
- the small **UI decisions**: the play guards and playable filter, the local
  like toggle, the "Liked Songs" branch of the add-to-playlist sheet, the
  cover-tile padding, the swipe gesture, and the two `m:ss` labels.

Everything is an immutable datatype and a pure function. React state setters
take effect at once. The audio engine is one `soundLoaded` flag. Each
server outcome that the code catches is a boolean or `Option` parameter;
device-storage writes are assumed to succeed. A missing `preview_url` is the empty string, because the code
only ever tests it for truthiness.

Files:

- `wrappers.dfy`: `Option`.
- `seqs.dfy`: an order-preserving `Filter`.
- `text.dfy`: `trim`, `split`, `join`, decimal numerals and the `m:ss` clock, with their round trips.
- `tracks.dfy`: the track and row shapes and the converters.
- `payloads.dfy`: the save bodies and the serialise/parse round trip.
- `playback.dfy`: the session state machine.
- `likes.dfy`: the liked-songs service and context.
- `recommendation.dfy`: the recommendation screen.
- `playlist_modal.dfy`: the add-to-playlist sheet.
- `full_screen.dfy`: the full-screen player.

Behaviour the model keeps as the code has it:

- `playTrack` does not reset the position to 0. The position keeps its last
  reported value until the new sound's first status report.
- `clearPlayback` keeps the queue and the cursor. A later `playNextTrack` on
  a cleared session whose cursor is not at the end resumes the old queue
  (`Playback.NextAfterClearResumesQueue`).
- `seekToPosition` does not clamp. It forwards any value to a loaded sound.
- `handleLike` on the recommendation screen is never called, and the
  `likedSongs` state it updates is never read; `Recommendation.HandleLike`
  models the function as written, not behaviour a user can reach.
- The liked-song cache keeps each track object as it was liked, so the
  delete sent on unlike carries whatever `deleteId` that object had. A track
  liked from search or recommendations has none, so the delete has no `id`
  (`LikeService.UnlikeAfterLikeHasNoRowId`). A track opened from a playlist or
  from history carries that screen's row id, so the delete sends a row id of
  another table with `playlistId` 0. The code's own comment at `frontend/services/likeTrackService.ts:68` leaves
  open whether to delete by row id or by track id, so no correction is modelled.

## Model

| member | source | states |
|---|---|---|
| Playback.PlayTrack | frontend/components/playback/PlaybackProvider.tsx:58-70 | the track becomes current, a sound is loaded and playing; queue, cursor, position, duration and full-screen are untouched |
| Playback.PlayTrackList | frontend/components/playback/PlaybackProvider.tsx:84-88 | the list becomes the queue with cursor 0; a non-empty list plays its first track with the cursor in range; an empty list changes only queue and cursor |
| Playback.PlayNextTrack | frontend/components/playback/PlaybackProvider.tsx:90-98 | before the last queued track it plays the next one with the cursor advanced; otherwise it equals clearing playback; the queue is kept and the cursor never moves back |
| Playback.PlayPreviousTrack | frontend/components/playback/PlaybackProvider.tsx:100-106 | at cursor 0 the session is unchanged; past 0 it plays the previous queued track with the cursor decremented; if the queue was replaced by a shorter one only the cursor moves |
| Playback.TogglePlayPause | frontend/components/playback/PlaybackProvider.tsx:108-113 | the playing flag flips exactly when a sound is loaded, and nothing else changes |
| Playback.SeekToPosition | frontend/components/playback/PlaybackProvider.tsx:115-117 | the session is unchanged; the engine gets the unclamped position exactly when a sound is loaded |
| Playback.ClearPlayback | frontend/components/playback/PlaybackProvider.tsx:119-126 | no sound, no current track, not playing; queue, cursor, position, duration and full-screen kept |
| Playback.SetPlaybackQueue | frontend/components/playback/PlaybackProvider.tsx:143 | replaces the queue and nothing else, so the cursor is kept as it was |
| Playback.SetIsFullScreen | frontend/components/playback/PlaybackProvider.tsx:34 | sets the full-screen flag and nothing else |
| Playback.OnPlaybackStatus | frontend/components/playback/PlaybackProvider.tsx:72-81 | an unloaded report changes nothing; a loaded one publishes position and duration (0 when missing); a finished one then acts as playNextTrack |
| Playback.StepKeepsConsistent | frontend/components/playback/PlaybackProvider.tsx:27-34 | every command keeps "sound loaded iff a track is current" and "playing implies a track is current" |
| Playback.RunKeepsConsistent | frontend/components/playback/PlaybackProvider.tsx:27-34 | any command sequence from a consistent session ends consistent |
| Playback.ReachableIsConsistent | frontend/components/playback/PlaybackProvider.tsx:27-34 | every session reachable from the initial state is consistent |
| Playback.StepKeepsCursor | frontend/components/playback/PlaybackProvider.tsx:90-106 | every command except the raw queue setter and an empty list play keeps the cursor inside the queue |
| Playback.RunKeepsCursor | frontend/components/playback/PlaybackProvider.tsx:84-106 | a run of such commands keeps the cursor inside the queue |
| Playback.StepKeepsCursorValid | frontend/components/playback/PlaybackProvider.tsx:84-106 | every command except the raw queue setter keeps the cursor inside the queue whenever the queue is non-empty, an empty list play included |
| Playback.RunKeepsCursorValid | frontend/components/playback/PlaybackProvider.tsx:84-106 | a run without the raw queue setter keeps that invariant |
| Playback.ReachableCursorValid | frontend/components/playback/PlaybackProvider.tsx:30-31 | from the initial state, every run without the raw queue setter ends with an empty queue or a cursor inside it |
| Playback.SetQueueCanStrandCursor | frontend/components/playback/PlaybackProvider.tsx:143 | the raw queue setter can leave the cursor past the end of the queue |
| Playback.ToggleTwice | frontend/components/playback/PlaybackProvider.tsx:108-113 | toggling twice restores the session |
| Playback.ClearIdempotent | frontend/components/playback/PlaybackProvider.tsx:119-126 | clearing twice equals clearing once |
| Playback.NextAfterLonePlayClears | frontend/components/playback/PlaybackProvider.tsx:90-98 | after a lone playTrack with an empty queue, next clears playback |
| Playback.EmptySessionCommandsStayEmpty | frontend/components/playback/PlaybackProvider.tsx:108-117 | with no current track, toggle and seek change nothing and send nothing, and next with an exhausted queue stays empty |
| Playback.NextAfterClearResumesQueue | frontend/components/playback/PlaybackProvider.tsx:119-126 | because clearing keeps the queue, next after a mid-queue clear plays the following track |
| Playback.AutoAdvanceScenario | frontend/components/playback/PlaybackProvider.tsx:72-98 | playing [a, b], a finished report moves to b at cursor 1, and a second one empties the session |
| Playback.OnPlaybackStatusAsWritten | frontend/components/playback/PlaybackProvider.tsx:72-126 | the callback as built: a finished report advances from the captured render's queue and cursor, and clears the live sound only if the captured render had one, while position, duration and every setter act on the live session |
| Playback.AsWrittenAgreesOnFreshCapture | frontend/components/playback/PlaybackProvider.tsx:72-126 | when the captured render is the live session, the callback as built equals the idealised one |
| Playback.StaleCallbackLeavesSoundWithoutTrack | frontend/components/playback/PlaybackProvider.tsx:119-126 | a lone playTrack on a fresh provider that finishes leaves a sound loaded with no current track, which the idealised callback never does |
| Playback.StaleCallbackDropsQueue | frontend/components/playback/PlaybackProvider.tsx:84-98 | playTrackList([a, b]) on a fresh provider stops after a instead of playing b |
| Playback.StaleCallbackRepeatsLastTrack | frontend/components/playback/PlaybackProvider.tsx:90-98 | replaying [a, b] from a render where it was already queued at cursor 0 starts b again each time b finishes |
| Text.Split | frontend/types/spotify.ts:98 | split on one character yields at least one piece and no piece contains the separator |
| Text.Trim | frontend/types/spotify.ts:99 | the result has no whitespace at either end, is no longer than the input, and equals a string that already had none |
| Text.TrimBounds | frontend/types/spotify.ts:99 | the result is a slice s[k..k+n] of the input, and every character before k and from k+n on is whitespace |
| Text.Join | frontend/services/likeTrackService.ts:53-54 | joining nothing gives ""; one piece joins to itself; a longer join starts with the first piece |
| Text.JoinAppend | frontend/services/likeTrackService.ts:53-54 | joining one more piece appends the separator and that piece |
| Text.SplitJoin | frontend/services/likeTrackService.ts:53-54 | splitting a join of one or more separator-free pieces gives the pieces back |
| Text.JoinSplit | frontend/types/spotify.ts:98 | joining the pieces of a split with the separator gives the original string |
| Text.ClockFields | frontend/components/RecommendationLayout.tsx:79 | an m:ss label with seconds below 100 has a colon, a two-digit seconds field, a minutes field that is the decimal numeral of the minutes, and reads back as its minutes and seconds |
| Text.NatToString | frontend/components/RecommendationLayout.tsx:79 | the decimal numeral is non-empty and all digits, one digit exactly below 10, with no leading zero except for 0 itself |
| Text.ParseNatToString | frontend/components/RecommendationLayout.tsx:79 | reading a numeral back gives the number |
| Seqs.Filter | frontend/components/RecommendationLayout.tsx:56 | every kept element satisfies the predicate and came from the input; every input element that satisfies it is kept; never longer than the input |
| Tracks.ArtistsOf | frontend/types/spotify.ts:98-101 | one artist per comma piece of the ids (so at least one); each id is its trimmed piece; each name is the trimmed piece at the same index, or "" when names run out |
| Tracks.FromPlaylistRow | frontend/types/spotify.ts:91-110 | id = trackId, name = title, uri = "spotify:track:" + trackId, preview and duration copied, artists as above, album id/name from the row with exactly one image, deleteId = row id |
| Tracks.FromHistoryRow | frontend/types/spotify.ts:155-174 | the same field mapping with the recommendation id as album id |
| Tracks.HistoryAgreesWithPlaylist | frontend/types/spotify.ts:155-174 | the two converters build equal tracks except for the album id |
| Tracks.FromPlaylistRows | frontend/types/spotify.ts:112-114 | same length, each element the converted row at the same index |
| Tracks.FromHistoryRows | frontend/types/spotify.ts:176-178 | same length, each element the converted history row at the same index |
| Tracks.FromPlaylistRowsConcat | frontend/types/spotify.ts:112-114 | converting a concatenation converts the parts in order |
| Payloads.SaveTrackPayload | frontend/components/PlaylistModal.tsx:70-79 | the given playlist id, trackId = id, title = name, the comma joins of artist ids and names, the preview, the first image url or "", the duration |
| Payloads.LikedSongPayload | frontend/services/likeTrackService.ts:49-58 | the liked-song body, written separately in the service, equals the add-to-playlist body for playlist id 0 |
| Payloads.RecommendationRowOf | frontend/components/RecommendationTracks.tsx:20-29 | carries the recommendation id, trackId = id, title = name, and the same artist, preview, image and duration columns as the playlist body |
| Payloads.ArtistsRoundTrip | frontend/services/likeTrackService.ts:53-54 | a non-empty artist list whose ids and names have no comma and no edge whitespace is rebuilt exactly by the row converter |
| Payloads.PlaylistRoundTrip | frontend/types/spotify.ts:91-110 | saving such a track and reading its row back keeps id, title, preview, duration and artists, with the canonical uri, one image holding the first image url, and the row id as deleteId |
| Payloads.HistoryRoundTrip | frontend/types/spotify.ts:155-174 | the same round trip through a recommendation row, with the recommendation id as album id |
| Payloads.NoArtistsReadBackAsOneEmptyArtist | frontend/types/spotify.ts:98-100 | a track with no artists comes back with a single empty artist, so the round trip needs a non-empty list |
| LikeService.LoadLikedSongs | frontend/services/likeTrackService.ts:27-35 | the cached list when one is stored, [] when nothing is stored or it cannot be read |
| LikeService.RemoveById | frontend/services/likeTrackService.ts:78 | every kept entry has another id and came from the list; every entry with another id is kept |
| LikeService.RemoveAbsentId | frontend/services/likeTrackService.ts:78 | removing an id no entry has returns the list unchanged |
| LikeService.RemoveAfterAppend | frontend/services/likeTrackService.ts:78 | removal distributes over appending a track, so the order of the rest is kept |
| LikeService.AddLikedSong | frontend/services/likeTrackService.ts:47-65 | posts the liked-song body; on success the cache becomes the loaded list with the track appended, without de-duplication; on failure it is untouched |
| LikeService.RemoveLikedSong | frontend/services/likeTrackService.ts:69-83 | asks to delete by deleteId in playlist 0; on success (storage write assumed to succeed) the cache drops every entry with the track's id; on failure it is untouched |
| LikeService.LoadLikedSongsFromDb | frontend/services/likeTrackService.ts:9-24 | on success the converted rows, one per row in order, are returned and cached; on any failure inside the try, [] and the cache as it was |
| LikeService.AddedSongIsLoadedLast | frontend/services/likeTrackService.ts:59-61 | after a successful add the next load is one longer and ends with the track |
| LikeService.UnlikeAfterLikeHasNoRowId | frontend/services/likeTrackService.ts:71-76 | a track liked without a `deleteId` (from search or recommendations) is cached without one, so unliking it sends a delete with no id |
| LikedTracks.IsLiked | frontend/components/LikedTracksProvider.tsx:57-59 | true exactly when some entry has the id |
| LikedTracks.Mount | frontend/components/LikedTracksProvider.tsx:36-42 | the list is what the server load returned, [] when it failed |
| LikedTracks.AddSongToLikes | frontend/components/LikedTracksProvider.tsx:45-48 | the list gains the track at the end and grows by exactly one, whatever the server said; the cache follows the service |
| LikedTracks.RemoveSongFromLikes | frontend/components/LikedTracksProvider.tsx:51-54 | the list drops every entry with the track's id, whatever the server said; the cache follows the service |
| LikedTracks.IsLikedAppend | frontend/components/LikedTracksProvider.tsx:47 | after appending, an id is liked iff it was liked or is the appended track's |
| LikedTracks.IsLikedRemove | frontend/components/LikedTracksProvider.tsx:53 | after removing x, an id is liked iff it was liked and is not x |
| LikedTracks.AddRemoveDecideIsLiked | frontend/components/LikedTracksProvider.tsx:45-59 | a track is liked after add and not liked after remove, and no other id changes |
| LikedTracks.RemoveUnlikedKeepsList | frontend/components/LikedTracksProvider.tsx:51-54 | removing a track whose id is not liked leaves the list unchanged |
| LikedTracks.AddThenRemoveRestores | frontend/components/LikedTracksProvider.tsx:45-54 | adding an unliked track then removing it restores the list |
| Recommendation.HandlePlay | frontend/components/RecommendationLayout.tsx:40-53 | a track without preview only shows the notice and never reaches playTrack; otherwise it is selected and played |
| Recommendation.PlayableTracks | frontend/components/RecommendationLayout.tsx:56 | keeps exactly the tracks with a preview |
| Recommendation.PlayableTracksKeepOrder | frontend/components/RecommendationLayout.tsx:56 | the playable tracks keep their original order |
| Recommendation.PlayableTracksOfPlayable | frontend/components/RecommendationLayout.tsx:56 | a list of playable tracks is kept whole |
| Recommendation.HandlePlayAll | frontend/components/RecommendationLayout.tsx:55-63 | with no playable track nothing happens; otherwise exactly the playable tracks are queued, a non-empty queue whose first track plays and whose every track has a preview |
| Recommendation.HandleLike | frontend/components/RecommendationLayout.tsx:65-69 | the id is in the result iff it was not before; an absent id is appended; a present id is filtered out with every other id kept in order and multiplicity; other ids keep their membership |
| Recommendation.HandleLikeTwice | frontend/components/RecommendationLayout.tsx:65-69 | liking then unliking an absent id restores the list |
| Recommendation.FormatDuration | frontend/components/RecommendationLayout.tsx:75-80 | minutes field = ms div 60000 with no leading zero; seconds field is the remainder rounded to the nearest second, halves up, at most 60, and 60 exactly when the remainder is at least 59500 |
| Recommendation.FormatDurationCarried | frontend/components/RecommendationLayout.tsx:75-80 | minutes times 60 plus seconds is the duration rounded to the nearest second, the seconds field is below 60, and the minutes field has no leading zero |
| Recommendation.FormatDurationCarriedAgrees | frontend/components/RecommendationLayout.tsx:75-80 | the carried label equals the source's whenever the remainder is below 59500 |
| Recommendation.FormatDurationShowsSixtySeconds | frontend/components/RecommendationLayout.tsx:77 | 119600 ms is labelled "1:60" by the source, "2:00" with the carry |
| Recommendation.RecommendationRows | frontend/components/RecommendationTracks.tsx:20-29 | one row per track, in order, each the recommendation row of that track |
| Recommendation.MountRecommendationTracks | frontend/components/RecommendationTracks.tsx:15-53 | nothing is posted iff the list or the recommendation id is empty; otherwise one row per track in order; the layout always receives the tracks as given |
| PlaylistModal.AddToPlaylist | frontend/components/PlaylistModal.tsx:45-91 | Liked Songs with the track liked: no add, no post, closes; not liked: one addSongToLikes and no post of its own; other playlists: one post for that playlist, the likes untouched, closed iff the post succeeded |
| PlaylistModal.LikedSongsPickNeverDuplicates | frontend/components/PlaylistModal.tsx:47-67 | picking Liked Songs leaves the track liked and adds it only if it was not liked |
| PlaylistModal.PlaylistThumbnail | frontend/components/PlaylistModal.tsx:93-110 | one url fills the cover; none give an empty grid; two urls give [a, b, b, a]; three give [a, b, c, a]; four or more give the first four; every tile comes from the input |
| FullScreen.FormatTime | frontend/components/playback/FullScreenPlayback.tsx:85-89 | minutes field = ms div 60000 with no leading zero; seconds field is the remainder rounded up to whole seconds, at most 60, and 60 exactly when the remainder exceeds 59000 |
| FullScreen.FormatTimeCarried | frontend/components/playback/FullScreenPlayback.tsx:85-89 | minutes times 60 plus seconds is the position rounded up to whole seconds, the seconds field is below 60, and the minutes field has no leading zero |
| FullScreen.FormatTimeCarriedAgrees | frontend/components/playback/FullScreenPlayback.tsx:85-89 | the carried label equals the source's whenever the remainder is at most 59000 |
| FullScreen.FormatTimeShowsSixtySeconds | frontend/components/playback/FullScreenPlayback.tsx:87 | 119500 ms is shown as "1:60" by the source, "2:00" with the carry |
| FullScreen.ToggleLike | frontend/components/playback/FullScreenPlayback.tsx:94-100 | a liked track is removed, any other added |
| FullScreen.ToggleLikeFlips | frontend/components/playback/FullScreenPlayback.tsx:94-100 | the button flips the track's liked state and no other id's |
| FullScreen.ToggleLikeTwice | frontend/components/playback/FullScreenPlayback.tsx:94-100 | pressing twice on an unliked track restores the list |
| FullScreen.DragOffset | frontend/components/playback/FullScreenPlayback.tsx:55-59 | the offset is never negative: the translation when it is positive, else 0, a missing translation reading as 0 |
| FullScreen.EndGesture | frontend/components/playback/FullScreenPlayback.tsx:61-68 | the sheet is dismissed iff the offset exceeds 100, and the offset returns to 0 either way |
| FullScreen.UpwardDragNeverDismisses | frontend/components/playback/FullScreenPlayback.tsx:55-68 | an upward or zero drag never dismisses the sheet |
| FullScreen.Render | frontend/components/playback/FullScreenPlayback.tsx:92-126 | nothing is shown iff there is no track; rendering fails iff the track's album has no image; otherwise the first image, the title and the liked state of its id |
| FullScreen.RenderAfterToggleLike | frontend/components/playback/FullScreenPlayback.tsx:94-126 | after pressing the heart the next render shows the same picture and title with the heart flipped |

## Left out

- Audio engine: `Audio.Sound.createAsync`, `unloadAsync`, `pauseAsync`, `playAsync`, `setPositionAsync` and `setAudioModeAsync` are external. They are reduced to the `soundLoaded` flag and the seek request.
- Playback.PlayTrack: does not model the engine failing to load the preview, because the engine is external. The model always reaches the loaded state. In the code a failed load rejects the promise after the old sound was unloaded.
- Playback.OnPlaybackStatus: auto-advance is idealised. It advances on the live session. The code's callback decides from the render that called `playTrack`; that behaviour is `Playback.OnPlaybackStatusAsWritten` (see Findings).
- Playback.StepKeepsConsistent: holds for the idealised status callback only. With the callback as built, a finished report can leave a sound loaded with no current track (`Playback.StaleCallbackLeavesSoundWithoutTrack`).
- Playback.RunKeepsConsistent: holds for runs whose status reports use the idealised callback only, for the same reason.
- Playback.ReachableIsConsistent: holds for the idealised callback only; the code as built reaches an inconsistent session after one finished track.
- Playback.AutoAdvanceScenario: describes the idealised callback. With the callback as built on a fresh provider, playback stops after a (`Playback.StaleCallbackDropsQueue`).
- Playback.PlayTrackList: an empty list calls `playTrack(undefined)`, which unloads the old sound in the engine and then throws. `sound`, `currentTrack` and `isPlaying` keep their values, so the model (whose `soundLoaded` follows the `sound` state) does not show that the audio stopped. No caller passes an empty list.
- Playback.PlayPreviousTrack: with the cursor past a shorter queue, the same `playTrack(undefined)` path unloads the engine's sound while the state still names the old track; the model moves only the cursor. This needs the raw queue setter.
- React's batched updates, render cycles and async interleaving of commands are not modelled. Commands run one at a time.
- Floating point: `handleSeek`'s position arithmetic and the progress-bar percentage are not modelled. Durations, positions and drag offsets are integers, and durations and positions are non-negative.
- Number formatting: minutes and seconds are rendered as JavaScript prints non-negative integers below 10^21.
- Text.IsWhitespace: the Unicode space separators are listed by code point as ECMAScript's `trim` removes them. No other Unicode data is modelled.
- The `genres: []` field the converters add and the image `height`/`width` are not modelled. Both are constants with no effect on behaviour.
- LikeService.AddLikedSong: the storage write itself is assumed to succeed. In the code a failed write is logged and swallowed, and the cache is left as before.
- LikeService.RemoveLikedSong: the storage write is assumed to succeed. In the code a failed write inside `saveLikedSongs` is logged and swallowed, and the cache keeps the removed track.
- LikeService.LoadLikedSongs: a stored value that parses to something other than a list of tracks is not modelled.
- Storing rows: the backend's SQL is not part of this model. `Payloads.StoredPlaylistRow` and `Payloads.StoredHistoryRow` assume a saved row is read back with the columns as posted.
- Credentials, login deep links, cookies, the axios instance and the Spotify player manager are I/O and timers. So are SecureStore, `Date.now` and `setTimeout`.
- The Spring controllers and services, the MyBatis mappers and the OAuth 2.0 code exchange are thin wrappers over a database or the network. The exchange follows sections 4.1 and 6 of RFC 6749.
- PlaylistModal.AddToPlaylist: takes a track. Without one the sheet renders nothing, so `addToPlaylist` cannot be reached.
- UI wiring is not modelled: styling, animations, toasts, action sheets, the bottom bar, the header, the bar/full-screen switch, the lint configuration and the `seed_genres` constant.

## Findings

| source | as written | input that shows it | evidently intended | confidence | as-written member | corrected member |
|---|---|---|---|---|---|---|
| frontend/components/RecommendationLayout.tsx:76-79 | seconds are rounded after minutes are split off, so a remainder of 59500 ms or more prints 60 seconds | 119600 ms gives "1:60" | round first, then carry into the minutes: "2:00" | high, not executed | Recommendation.FormatDurationShowsSixtySeconds | Recommendation.FormatDurationCarried |
| frontend/components/playback/FullScreenPlayback.tsx:86-88 | seconds are rounded up after minutes are split off, so a remainder above 59000 ms prints 60 seconds | 119500 ms gives "1:60" | round up first, then carry into the minutes: "2:00" | high, not executed | FullScreen.FormatTimeShowsSixtySeconds | FullScreen.FormatTimeCarried |
| frontend/components/playback/PlaybackProvider.tsx:72-81 | the status callback calls the `playNextTrack` of the render that called `playTrack`, so it decides from that render's queue, cursor and sound; `playTrackList` calls `playTrack` before its new queue is visible | `playTrack(t)` on a fresh provider, then t finishes: sound set, no current track; `playTrackList([a, b])` on a fresh provider stops after a | advance from the live queue and cursor, keeping "sound loaded iff a track is current" | medium, not executed | Playback.StaleCallbackLeavesSoundWithoutTrack | Playback.ReachableIsConsistent |

=== FILE: full_screen.dfy ===
/** The full-screen player: its time labels, like button and swipe gesture. */
module FullScreen {
  import opened Wrappers
  import Text
  import opened Tracks
  import Playback
  import LikedTracks

  /** `formatTime`: whole minutes, a colon, and the remaining milliseconds
      rounded up to whole seconds (`Math.ceil`), zero-padded below 10. The
      seconds reach 60 for anything past 59 s. */
  function FormatTime(ms: nat): (r: string)
    ensures |r| >= 4 && r[|r| - 3] == ':'
    ensures Text.AllDigits(Text.MinutesField(r)) && Text.AllDigits(Text.SecondsField(r))
    ensures Text.MinutesField(r)[0] == '0' ==> Text.MinutesField(r) == "0"
    ensures Text.ParseNat(Text.MinutesField(r)) == ms / 60000
    ensures var sec := Text.ParseNat(Text.SecondsField(r));
      && ms % 60000 <= sec * 1000 < ms % 60000 + 1000
      && sec <= 60
      && (sec == 60 <==> ms % 60000 > 59000)
  {
    var minutes := ms / 60000;
    var seconds := (ms % 60000 + 999) / 1000;
    Text.ClockFields(minutes, seconds);
    Text.Clock(minutes, seconds)
  }

  /** `toggleLike`: unlike a liked track, like any other. */
  function ToggleLike(l: LikedTracks.Likes, t: Track, serverOk: bool): (r: LikedTracks.Likes)
    ensures LikedTracks.IsLiked(l.songs, t.id) ==> r == LikedTracks.RemoveSongFromLikes(l, t, serverOk)
    ensures !LikedTracks.IsLiked(l.songs, t.id) ==> r == LikedTracks.AddSongToLikes(l, t, serverOk)
  {
    if LikedTracks.IsLiked(l.songs, t.id) then LikedTracks.RemoveSongFromLikes(l, t, serverOk)
    else LikedTracks.AddSongToLikes(l, t, serverOk)
  }

  /** The like button flips whether the track is liked and no other id's state. */
  lemma ToggleLikeFlips(l: LikedTracks.Likes, t: Track, serverOk: bool, other: string)
    ensures LikedTracks.IsLiked(ToggleLike(l, t, serverOk).songs, t.id) <==> !LikedTracks.IsLiked(l.songs, t.id)
    ensures other != t.id ==>
      (LikedTracks.IsLiked(ToggleLike(l, t, serverOk).songs, other) <==> LikedTracks.IsLiked(l.songs, other))
  {
    LikedTracks.AddRemoveDecideIsLiked(l, t, serverOk, other);
  }

  /** Pressing the like button twice on an unliked track restores the list. */
  lemma ToggleLikeTwice(l: LikedTracks.Likes, t: Track, ok1: bool, ok2: bool)
    requires !LikedTracks.IsLiked(l.songs, t.id)
    ensures ToggleLike(ToggleLike(l, t, ok1), t, ok2).songs == l.songs
  {
    LikedTracks.AddRemoveDecideIsLiked(l, t, ok1, t.id);
    LikedTracks.AddThenRemoveRestores(l, t, ok1, ok2);
  }

  /** How far down, in points, the sheet must be dragged to close it. */
  const SwipeDownThreshold: int := 100

  /** `handleGesture`: the sheet follows a downward drag only; a missing
      translation reads as 0. */
  function DragOffset(translationY: Option<int>): (r: nat)
    ensures r >= translationY.GetOr(0)
    ensures r == 0 || r == translationY.GetOr(0)
  {
    var y := translationY.GetOr(0);
    if y > 0 then y else 0
  }

  datatype GestureEnd = GestureEnd(swipeDown: bool, offset: nat)

  /** `handleGestureEnd`: past the threshold the sheet is dismissed; either
      way it springs back to 0. */
  function EndGesture(offset: nat): (r: GestureEnd)
    ensures r.swipeDown <==> offset > SwipeDownThreshold
    ensures r.offset == 0
  {
    GestureEnd(offset > SwipeDownThreshold, 0)
  }

  /** An upward drag never dismisses the sheet. */
  lemma UpwardDragNeverDismisses(translationY: int)
    requires translationY <= 0
    ensures !EndGesture(DragOffset(Some(translationY))).swipeDown
  {
  }

  /** What the full-screen player shows of its track. */
  datatype View = View(albumArt: string, title: string, liked: bool)

  /** The outcome of rendering: nothing without a track, a render error when
      the track's album has no image to show, otherwise the view. */
  datatype Screen = Hidden | RenderError | Shown(view: View)

  /** Nothing is shown without a track. The album art is the album's first
      image, so a track whose album has none cannot be rendered; any other
      track shows that image, its title and whether it is liked. */
  function Render(track: Option<Track>, likes: seq<Track>): (r: Screen)
    ensures r.Hidden? <==> track.None?
    ensures r.RenderError? <==> track.Some? && |track.value.album.images| == 0
    ensures r.Shown? ==> r.view.albumArt == track.value.album.images[0].url
    ensures r.Shown? ==> r.view.title == track.value.name
    ensures r.Shown? ==> r.view.liked == LikedTracks.IsLiked(likes, track.value.id)
  {
    match track
    case None => Hidden
    case Some(t) =>
      if |t.album.images| == 0 then RenderError
      else Shown(View(t.album.images[0].url, t.name, LikedTracks.IsLiked(likes, t.id)))
  }

  /** Pressing the heart flips the heart the next render shows for the same
      track, and leaves the picture and title as they were. */
  lemma RenderAfterToggleLike(l: LikedTracks.Likes, t: Track, serverOk: bool)
    requires |t.album.images| > 0
    ensures var before := Render(Some(t), l.songs);
      var after := Render(Some(t), ToggleLike(l, t, serverOk).songs);
      && before.Shown? && after.Shown?
      && after.view == before.view.(liked := !before.view.liked)
  {
    ToggleLikeFlips(l, t, serverOk, t.id);
  }

  /** The position label with the carry into the minutes: the position is
      rounded up to whole seconds first, so the seconds field stays below 60. */
  function FormatTimeCarried(ms: nat): (r: string)
    ensures |r| >= 4 && r[|r| - 3] == ':'
    ensures Text.AllDigits(Text.MinutesField(r)) && Text.AllDigits(Text.SecondsField(r))
    ensures Text.MinutesField(r)[0] == '0' ==> Text.MinutesField(r) == "0"
    ensures var total := Text.ParseNat(Text.MinutesField(r)) * 60 + Text.ParseNat(Text.SecondsField(r));
      && Text.ParseNat(Text.SecondsField(r)) < 60
      && ms <= total * 1000 < ms + 1000
  {
    var total := (ms + 999) / 1000;
    Text.ClockFields(total / 60, total % 60);
    Text.Clock(total / 60, total % 60)
  }

  /** Both labels agree whenever the seconds do not round up to a full minute. */
  lemma FormatTimeCarriedAgrees(ms: nat)
    requires ms % 60000 <= 59000
    ensures FormatTimeCarried(ms) == FormatTime(ms)
  {
    Text.SplitThenRound(ms, 999);
  }

  /** 119.5 s is shown as `1:60`; carried into the minutes it is `2:00`. */
  lemma FormatTimeShowsSixtySeconds()
    ensures FormatTime(119500) == "1:60"
    ensures FormatTimeCarried(119500) == "2:00"
  {
    assert 119500 / 60000 == 1 && 119500 % 60000 == 59500;
    assert (59500 + 999) / 1000 == 60;
    assert (119500 + 999) / 1000 == 120 && 120 / 60 == 2 && 120 % 60 == 0;
    assert Text.NatToString(6) == "6";
    assert Text.NatToString(60) == "6" + "0";
    assert Text.Clock(1, 60) == "1:60";
    assert Text.Clock(2, 0) == "2:00";
  }
}

=== FILE: likes.dfy ===
/** The liked-songs service: the server request each call makes and the copy
    of the list cached on the device. Every call catches its own failures, so
    each one is a total function of the server's outcome; device-storage
    writes are taken to succeed. */
module LikeService {
  import opened Wrappers
  import Seqs
  import opened Tracks
  import Payloads

  /** What device storage holds under the liked-songs key. */
  datatype Cache = Absent | Saved(tracks: seq<Track>) | Unreadable

  /** The query of a `DELETE /api/playlist/track` request. */
  datatype DeleteRequest = DeleteRequest(id: Option<int>, playlistId: int)

  /** `loadLikedSongs`: the cached list, or `[]` when nothing is stored or it
      cannot be read. */
  function LoadLikedSongs(c: Cache): (r: seq<Track>)
    ensures c.Saved? ==> r == c.tracks
    ensures !c.Saved? ==> r == []
  {
    match c
    case Saved(ts) => ts
    case _ => []
  }

  /** `songs` without the entries whose id is `id`, in the same order. */
  function RemoveById(songs: seq<Track>, id: string): (r: seq<Track>)
    ensures |r| <= |songs|
    ensures forall i :: 0 <= i < |r| ==> r[i].id != id && r[i] in songs
    ensures forall i :: 0 <= i < |songs| && songs[i].id != id ==> songs[i] in r
  {
    Seqs.Filter(songs, (t: Track) => t.id != id)
  }

  /** Removing an id that no entry has leaves the list unchanged. */
  lemma RemoveAbsentId(songs: seq<Track>, id: string)
    requires forall i :: 0 <= i < |songs| ==> songs[i].id != id
    ensures RemoveById(songs, id) == songs
  {
    Seqs.FilterKeepsAll(songs, (t: Track) => t.id != id);
  }

  /** Removing from a list with one more track appended removes from both parts. */
  lemma RemoveAfterAppend(songs: seq<Track>, t: Track, id: string)
    ensures RemoveById(songs + [t], id) == RemoveById(songs, id) + (if t.id != id then [t] else [])
  {
    Seqs.FilterConcat(songs, [t], (x: Track) => x.id != id);
    assert [t][1..] == [];
  }

  /** `addLikedSong`: post the liked-song row; when the server accepts it,
      append the track to the cached list (no de-duplication). On a server
      failure the cache is untouched. Returns the request and the new cache. */
  function AddLikedSong(c: Cache, t: Track, serverOk: bool): (r: (Payloads.SavePayload, Cache))
    ensures r.0 == Payloads.LikedSongPayload(t)
    ensures serverOk ==> r.1 == Saved(LoadLikedSongs(c) + [t])
    ensures !serverOk ==> r.1 == c
  {
    (Payloads.LikedSongPayload(t), if serverOk then Saved(LoadLikedSongs(c) + [t]) else c)
  }

  /** `removeLikedSong`: ask the server to delete the row by `deleteId` from
      playlist 0; when it accepts, drop every cached entry with the track's
      id. On a server failure the cache is untouched. */
  function RemoveLikedSong(c: Cache, t: Track, serverOk: bool): (r: (DeleteRequest, Cache))
    ensures r.0 == DeleteRequest(t.deleteId, Payloads.LikedPlaylistId)
    ensures serverOk ==> r.1 == Saved(RemoveById(LoadLikedSongs(c), t.id))
    ensures !serverOk ==> r.1 == c
  {
    (DeleteRequest(t.deleteId, Payloads.LikedPlaylistId),
     if serverOk then Saved(RemoveById(LoadLikedSongs(c), t.id)) else c)
  }

  /** `loadLikedSongsFromDB`: the rows of playlist 0 converted to tracks and
      cached. `None` stands for any failure inside the code's `try`: the
      request, the row conversion or the storage write; then the result is
      `[]` and the cache as it was. */
  function LoadLikedSongsFromDb(c: Cache, response: Option<seq<PlaylistRow>>): (r: (seq<Track>, Cache))
    ensures response.None? ==> r == ([], c)
    ensures response.Some? ==> |r.0| == |response.value| && r.1 == Saved(r.0)
    ensures response.Some? ==> forall i :: 0 <= i < |r.0| ==> r.0[i] == FromPlaylistRow(response.value[i])
  {
    match response
    case Some(rows) => var ts := FromPlaylistRows(rows); (ts, Saved(ts))
    case None => ([], c)
  }

  /** A track liked without a `deleteId` (from search or recommendations) is
      cached without one, so unliking it sends a delete with no id. */
  lemma UnlikeAfterLikeHasNoRowId(c: Cache, t: Track, ok: bool)
    requires t.deleteId.None?
    ensures var cached := LoadLikedSongs(AddLikedSong(c, t, true).1);
      RemoveLikedSong(AddLikedSong(c, t, true).1, cached[|cached| - 1], ok).0.id.None?
  {
  }

  /** A liked track is cached after a successful add, and the next load returns it last. */
  lemma AddedSongIsLoadedLast(c: Cache, t: Track)
    ensures var ts := LoadLikedSongs(AddLikedSong(c, t, true).1);
      |ts| == |LoadLikedSongs(c)| + 1 && ts[|ts| - 1] == t
  {
  }
}

/** The liked-songs context the screens share: the in-memory list, kept in
    step with the service. */
module LikedTracks {
  import opened Wrappers
  import opened Tracks
  import LikeService

  datatype Likes = Likes(songs: seq<Track>, cache: LikeService.Cache)

  /** `isLiked`: some entry has the id (`Array.prototype.some`). */
  function IsLiked(songs: seq<Track>, id: string): (r: bool)
    ensures r <==> exists i :: 0 <= i < |songs| && songs[i].id == id
    decreases |songs|
  {
    if |songs| == 0 then false
    else songs[0].id == id || IsLiked(songs[1..], id)
  }

  /** The provider's state once its mount-time load has finished. */
  function Mount(c: LikeService.Cache, response: Option<seq<PlaylistRow>>): (r: Likes)
    ensures r.songs == LikeService.LoadLikedSongsFromDb(c, response).0
    ensures response.None? ==> r.songs == [] && r.cache == c
  {
    var loaded := LikeService.LoadLikedSongsFromDb(c, response);
    Likes(loaded.0, loaded.1)
  }

  /** `addSongToLikes`: the service call, then the track appended to the
      in-memory list whether or not the server accepted it. */
  function AddSongToLikes(l: Likes, t: Track, serverOk: bool): (r: Likes)
    ensures r.songs == l.songs + [t]
    ensures |r.songs| == |l.songs| + 1
    ensures r.cache == LikeService.AddLikedSong(l.cache, t, serverOk).1
  {
    Likes(l.songs + [t], LikeService.AddLikedSong(l.cache, t, serverOk).1)
  }

  /** `removeSongFromLikes`: the service call, then every entry with the
      track's id dropped from the in-memory list, whatever the server said. */
  function RemoveSongFromLikes(l: Likes, t: Track, serverOk: bool): (r: Likes)
    ensures r.songs == LikeService.RemoveById(l.songs, t.id)
    ensures r.cache == LikeService.RemoveLikedSong(l.cache, t, serverOk).1
  {
    Likes(LikeService.RemoveById(l.songs, t.id), LikeService.RemoveLikedSong(l.cache, t, serverOk).1)
  }

  /** Appending a track makes its id liked and leaves other ids as they were. */
  lemma IsLikedAppend(songs: seq<Track>, t: Track, id: string)
    ensures IsLiked(songs + [t], id) <==> IsLiked(songs, id) || t.id == id
  {
    var added := songs + [t];
    if IsLiked(added, id) && t.id != id {
      var j :| 0 <= j < |added| && added[j].id == id;
      assert j < |songs| && added[j] == songs[j];
    }
    if IsLiked(songs, id) {
      var i :| 0 <= i < |songs| && songs[i].id == id;
      assert added[i] == songs[i];
    }
    assert added[|songs|] == t;
  }

  /** After removing `x`, an id is liked exactly when it was liked and is not `x`. */
  lemma IsLikedRemove(songs: seq<Track>, x: string, id: string)
    ensures IsLiked(LikeService.RemoveById(songs, x), id) <==> IsLiked(songs, id) && id != x
  {
    var removed := LikeService.RemoveById(songs, x);
    if IsLiked(songs, id) && id != x {
      var i :| 0 <= i < |songs| && songs[i].id == id;
      assert songs[i] in removed;
    }
    if IsLiked(removed, id) {
      var j :| 0 <= j < |removed| && removed[j].id == id;
      assert removed[j] in songs;
    }
  }

  /** A track is liked right after it is added and not liked right after it
      is removed; the likedness of every other id is unchanged by either. */
  lemma AddRemoveDecideIsLiked(l: Likes, t: Track, serverOk: bool, other: string)
    ensures IsLiked(AddSongToLikes(l, t, serverOk).songs, t.id)
    ensures !IsLiked(RemoveSongFromLikes(l, t, serverOk).songs, t.id)
    ensures other != t.id ==>
      (IsLiked(AddSongToLikes(l, t, serverOk).songs, other) <==> IsLiked(l.songs, other))
    ensures other != t.id ==>
      (IsLiked(RemoveSongFromLikes(l, t, serverOk).songs, other) <==> IsLiked(l.songs, other))
  {
    IsLikedAppend(l.songs, t, t.id);
    IsLikedAppend(l.songs, t, other);
    IsLikedRemove(l.songs, t.id, t.id);
    IsLikedRemove(l.songs, t.id, other);
  }

  /** Removing a track whose id is not liked leaves the list as it was. */
  lemma RemoveUnlikedKeepsList(l: Likes, t: Track, serverOk: bool)
    requires !IsLiked(l.songs, t.id)
    ensures RemoveSongFromLikes(l, t, serverOk).songs == l.songs
  {
    LikeService.RemoveAbsentId(l.songs, t.id);
  }

  /** Adding a not-yet-liked track and removing it again restores the list. */
  lemma AddThenRemoveRestores(l: Likes, t: Track, ok1: bool, ok2: bool)
    requires !IsLiked(l.songs, t.id)
    ensures RemoveSongFromLikes(AddSongToLikes(l, t, ok1), t, ok2).songs == l.songs
  {
    LikeService.RemoveAfterAppend(l.songs, t, t.id);
    LikeService.RemoveAbsentId(l.songs, t.id);
  }
}

=== FILE: payloads.dfy ===
/** The rows the client sends to the backend: a track flattened into
    comma-joined artist columns. The same mapping appears in the liked-song
    save, in the add-to-playlist save and in the recommendation save. */
module Payloads {
  import opened Wrappers
  import Text
  import opened Tracks

  /** The body of a `/api/playlist/track/save` request. */
  datatype SavePayload = SavePayload(
    playlistId: int,
    trackId: string,
    title: string,
    artistIds: string,
    artistNames: string,
    previewUrl: string,
    albumImageUrl: string,
    durationMs: nat)

  /** One element of the `/api/recommendation/tracks/save` request body. */
  datatype RecommendationRow = RecommendationRow(
    trackId: string,
    recommendationId: string,
    title: string,
    artistIds: string,
    artistNames: string,
    previewUrl: string,
    albumImageUrl: string,
    durationMs: nat)

  /** The playlist id the backend reserves for "Liked Songs". */
  const LikedPlaylistId: int := 0

  function ArtistIds(artists: seq<Artist>): (r: seq<string>)
    ensures |r| == |artists|
    ensures forall i :: 0 <= i < |artists| ==> r[i] == artists[i].id
  {
    seq(|artists|, i requires 0 <= i < |artists| => artists[i].id)
  }

  function ArtistNames(artists: seq<Artist>): (r: seq<string>)
    ensures |r| == |artists|
    ensures forall i :: 0 <= i < |artists| ==> r[i] == artists[i].name
  {
    seq(|artists|, i requires 0 <= i < |artists| => artists[i].name)
  }

  /** `track.album.images[0]?.url || ''`. */
  function FirstImageUrl(t: Track): string {
    if |t.album.images| > 0 then t.album.images[0].url else ""
  }

  /** `track.preview_url || ''`: a missing preview is already `""`, so the value is kept. */
  function PreviewOrEmpty(t: Track): string {
    if t.previewUrl != "" then t.previewUrl else ""
  }

  /** The save body for `t` in the playlist `playlistId`. */
  function SaveTrackPayload(playlistId: int, t: Track): (p: SavePayload)
    ensures p.playlistId == playlistId && p.trackId == t.id && p.title == t.name
    ensures p.artistIds == Text.Join(ArtistIds(t.artists), [Separator])
    ensures p.artistNames == Text.Join(ArtistNames(t.artists), [Separator])
    ensures p.previewUrl == t.previewUrl
    ensures p.albumImageUrl == (if |t.album.images| > 0 then t.album.images[0].url else "")
    ensures p.durationMs == t.durationMs
  {
    SavePayload(
      playlistId, t.id, t.name,
      Text.Join(ArtistIds(t.artists), [Separator]),
      Text.Join(ArtistNames(t.artists), [Separator]),
      PreviewOrEmpty(t), FirstImageUrl(t), t.durationMs)
  }

  /** The save body `addLikedSong` posts. It is written out separately from
      the add-to-playlist body and agrees with it for playlist 0. */
  function LikedSongPayload(t: Track): (p: SavePayload)
    ensures p.playlistId == LikedPlaylistId
    ensures p == SaveTrackPayload(LikedPlaylistId, t)
  {
    SavePayload(
      LikedPlaylistId, t.id, t.name,
      Text.Join(ArtistIds(t.artists), [Separator]),
      Text.Join(ArtistNames(t.artists), [Separator]),
      PreviewOrEmpty(t), FirstImageUrl(t), t.durationMs)
  }

  /** The recommendation row for `t` in the recommendation `recommendationId`. */
  function RecommendationRowOf(recommendationId: string, t: Track): (r: RecommendationRow)
    ensures r.recommendationId == recommendationId && r.trackId == t.id && r.title == t.name
    ensures var p := SaveTrackPayload(LikedPlaylistId, t);
      && r.artistIds == p.artistIds && r.artistNames == p.artistNames
      && r.previewUrl == p.previewUrl && r.albumImageUrl == p.albumImageUrl
      && r.durationMs == p.durationMs
  {
    RecommendationRow(
      t.id, recommendationId, t.name,
      Text.Join(ArtistIds(t.artists), [Separator]),
      Text.Join(ArtistNames(t.artists), [Separator]),
      PreviewOrEmpty(t), FirstImageUrl(t), t.durationMs)
  }

  /** The playlist row the backend holds once it has stored `p` under `rowId`:
      the backend's `PlaylistTrack` carries exactly the posted columns. */
  function StoredPlaylistRow(p: SavePayload, rowId: int): PlaylistRow {
    PlaylistRow(rowId, p.playlistId, p.trackId, p.title, p.artistIds, p.artistNames,
                p.previewUrl, p.albumImageUrl, p.durationMs)
  }

  /** The history row the backend holds once it has stored `r` under `rowId`. */
  function StoredHistoryRow(r: RecommendationRow, rowId: int): HistoryRow {
    HistoryRow(rowId, r.recommendationId, r.trackId, r.title, r.artistIds, r.artistNames,
               r.previewUrl, r.albumImageUrl, r.durationMs)
  }

  /** Artists that survive being flattened into comma-joined columns: at
      least one, and no id or name containing a comma or starting or ending
      with whitespace. */
  predicate CleanArtists(artists: seq<Artist>) {
    && |artists| >= 1
    && (forall i :: 0 <= i < |artists| ==>
          Separator !in artists[i].id && Text.IsTrimmed(artists[i].id))
    && (forall i :: 0 <= i < |artists| ==>
          Separator !in artists[i].name && Text.IsTrimmed(artists[i].name))
  }

  /** A track whose artists flatten cleanly. */
  predicate FlattensCleanly(t: Track) {
    CleanArtists(t.artists)
  }

  /** Splitting and trimming the flattened columns gives the artists back. */
  lemma ArtistsRoundTrip(artists: seq<Artist>)
    requires CleanArtists(artists)
    ensures ArtistsOf(Text.Join(ArtistIds(artists), [Separator]),
                      Text.Join(ArtistNames(artists), [Separator])) == artists
  {
    var ids := ArtistIds(artists);
    var names := ArtistNames(artists);
    Text.SplitJoin(ids, Separator);
    Text.SplitJoin(names, Separator);
    var r := ArtistsOf(Text.Join(ids, [Separator]), Text.Join(names, [Separator]));
    assert |r| == |artists|;
    forall i | 0 <= i < |r| ensures r[i] == artists[i] {
      assert r[i].id == Text.Trim(ids[i]) == artists[i].id;
      assert r[i].name == Text.Trim(names[i]) == artists[i].name;
    }
  }

  /** A track saved to a playlist and read back from it keeps its id, title,
      preview, duration and (when they flatten cleanly) its artists; it gains
      the canonical uri, a one-image album holding the first image url, and
      the row id as its `deleteId`. */
  lemma PlaylistRoundTrip(playlistId: int, t: Track, rowId: int)
    requires FlattensCleanly(t)
    ensures var back := FromPlaylistRow(StoredPlaylistRow(SaveTrackPayload(playlistId, t), rowId));
      && back.id == t.id && back.name == t.name
      && back.uri == UriPrefix + t.id
      && back.previewUrl == t.previewUrl && back.durationMs == t.durationMs
      && back.artists == t.artists
      && back.album.images == [Image(FirstImageUrl(t))]
      && back.deleteId == Some(rowId)
  {
    ArtistsRoundTrip(t.artists);
  }

  /** A recommended track saved with its recommendation and read back from the
      history keeps the same fields, with the recommendation id as album id. */
  lemma HistoryRoundTrip(recommendationId: string, t: Track, rowId: int)
    requires FlattensCleanly(t)
    ensures var back := FromHistoryRow(StoredHistoryRow(RecommendationRowOf(recommendationId, t), rowId));
      && back.id == t.id && back.name == t.name
      && back.uri == UriPrefix + t.id
      && back.previewUrl == t.previewUrl && back.durationMs == t.durationMs
      && back.artists == t.artists
      && back.album.id == recommendationId
      && back.album.images == [Image(FirstImageUrl(t))]
      && back.deleteId == Some(rowId)
  {
    ArtistsRoundTrip(t.artists);
  }

  /** Without the clean-flattening condition the artists are not recovered: a
      track with no artists reads back with one artist whose id and name are empty. */
  lemma NoArtistsReadBackAsOneEmptyArtist(t: Track, rowId: int)
    requires |t.artists| == 0
    ensures FromPlaylistRow(StoredPlaylistRow(LikedSongPayload(t), rowId)).artists == [Artist("", "")]
  {
    assert Text.Split("", Separator) == [""];
    assert Text.Trim("") == "";
  }
}

=== FILE: playback.dfy ===
/** The playback session: what is loaded, what is queued and what plays next.
    Every state setter takes effect at once, the audio engine is the single
    `soundLoaded` flag, and a status report from the engine acts on the
    current session. */
module Playback {
  import opened Wrappers
  import opened Tracks

  datatype Session = Session(
    soundLoaded: bool,
    current: Option<Track>,
    playing: bool,
    queue: seq<Track>,
    index: nat,
    position: nat,
    duration: nat,
    fullScreen: bool)

  /** The state the provider starts in. */
  const Initial: Session := Session(false, None, false, [], 0, 0, 0, false)

  /** A status report from the audio engine. A missing position or duration
      reads as 0. */
  datatype Status = Status(
    isLoaded: bool,
    positionMillis: Option<nat>,
    durationMillis: Option<nat>,
    didJustFinish: bool)

  /** A sound is loaded exactly when a track is current, and only a current
      track can be playing. */
  predicate Consistent(s: Session) {
    && (s.soundLoaded <==> s.current.Some?)
    && (s.playing ==> s.current.Some?)
  }

  /** The cursor points into the queue. */
  predicate CursorInQueue(s: Session) {
    s.index < |s.queue|
  }

  /** `playTrack`: release the old sound, load `t` and start it. The queue,
      cursor, reported position and duration are not touched. */
  function PlayTrack(s: Session, t: Track): (r: Session)
    ensures r.soundLoaded && r.current == Some(t) && r.playing
    ensures r.queue == s.queue && r.index == s.index
    ensures r.position == s.position && r.duration == s.duration
    ensures r.fullScreen == s.fullScreen
  {
    s.(soundLoaded := true, current := Some(t), playing := true)
  }

  /** `playTrackList`: the list becomes the queue, the cursor goes to 0 and the
      first track plays. An empty list leaves an empty queue and nothing else
      changes, because playing the missing first element fails. */
  function PlayTrackList(s: Session, ts: seq<Track>): (r: Session)
    ensures r.queue == ts && r.index == 0
    ensures |ts| > 0 ==> r.current == Some(ts[0]) && r.playing && r.soundLoaded
    ensures |ts| > 0 ==> CursorInQueue(r)
    ensures |ts| == 0 ==> r == s.(queue := [], index := 0)
    ensures r.position == s.position && r.duration == s.duration && r.fullScreen == s.fullScreen
  {
    var queued := s.(queue := ts, index := 0);
    if |ts| > 0 then PlayTrack(queued, ts[0]) else queued
  }

  /** `clearPlayback`: unload the sound and forget the current track. The
      queue, cursor, position, duration and full-screen flag stay. */
  function ClearPlayback(s: Session): (r: Session)
    ensures !r.soundLoaded && r.current == None && !r.playing
    ensures r.queue == s.queue && r.index == s.index
    ensures r.position == s.position && r.duration == s.duration
    ensures r.fullScreen == s.fullScreen
  {
    s.(soundLoaded := false, current := None, playing := false)
  }

  /** `playNextTrack`: advance and play when the cursor is before the last
      queued track; otherwise the queue is exhausted and playback is cleared. */
  function PlayNextTrack(s: Session): (r: Session)
    ensures s.index + 1 < |s.queue| ==>
      r == PlayTrack(s.(index := s.index + 1), s.queue[s.index + 1])
    ensures s.index + 1 >= |s.queue| ==> r == ClearPlayback(s)
    ensures r.queue == s.queue && r.index >= s.index
  {
    if s.index < |s.queue| - 1 then
      var next := s.index + 1;
      PlayTrack(s.(index := next), s.queue[next])
    else
      ClearPlayback(s)
  }

  /** `playPreviousTrack`: step back and play when the cursor is past 0; at 0
      nothing happens. When the queue was replaced by a shorter one, the
      cursor still moves back but the missing track cannot be played. */
  function PlayPreviousTrack(s: Session): (r: Session)
    ensures s.index == 0 ==> r == s
    ensures 0 < s.index <= |s.queue| ==>
      r == PlayTrack(s.(index := s.index - 1), s.queue[s.index - 1])
    ensures s.index > |s.queue| ==> r == s.(index := s.index - 1)
    ensures r.queue == s.queue && r.index <= s.index
  {
    if s.index > 0 then
      var previous := s.index - 1;
      var moved := s.(index := previous);
      if previous < |s.queue| then PlayTrack(moved, s.queue[previous]) else moved
    else
      s
  }

  /** `togglePlayPause`: with a sound loaded, flip between playing and paused;
      without one, do nothing. Nothing else changes. */
  function TogglePlayPause(s: Session): (r: Session)
    ensures r.playing == (if s.soundLoaded then !s.playing else s.playing)
    ensures r.(playing := s.playing) == s
  {
    if s.soundLoaded then s.(playing := !s.playing) else s
  }

  /** `seekToPosition`: the session is not changed (the next status report
      carries the new position); the engine is asked to seek, unclamped,
      only when a sound is loaded. Returns the session and the engine request. */
  function SeekToPosition(s: Session, positionMs: int): (r: (Session, Option<int>))
    ensures r.0 == s
    ensures r.1.Some? <==> s.soundLoaded
    ensures r.1.Some? ==> r.1.value == positionMs
  {
    (s, if s.soundLoaded then Some(positionMs) else None)
  }

  /** The raw `setPlaybackQueue` setter: replaces the queue and keeps the cursor. */
  function SetPlaybackQueue(s: Session, q: seq<Track>): (r: Session)
    ensures r.queue == q && r.(queue := s.queue) == s
  {
    s.(queue := q)
  }

  /** `setIsFullScreen`: the presentation flag, independent of the audio. */
  function SetIsFullScreen(s: Session, value: bool): (r: Session)
    ensures r.fullScreen == value && r.(fullScreen := s.fullScreen) == s
  {
    s.(fullScreen := value)
  }

  /** The status callback: a report from an unloaded sound is ignored; a
      loaded one publishes position and duration (0 when missing), and a
      report of natural end additionally advances as `playNextTrack` does. */
  function OnPlaybackStatus(s: Session, st: Status): (r: Session)
    ensures !st.isLoaded ==> r == s
    ensures st.isLoaded && !st.didJustFinish ==>
      r == s.(position := st.positionMillis.GetOr(0), duration := st.durationMillis.GetOr(0))
    ensures st.isLoaded && st.didJustFinish ==>
      r == PlayNextTrack(s.(position := st.positionMillis.GetOr(0), duration := st.durationMillis.GetOr(0)))
  {
    if st.isLoaded then
      var reported := s.(position := st.positionMillis.GetOr(0), duration := st.durationMillis.GetOr(0));
      if st.didJustFinish then PlayNextTrack(reported) else reported
    else
      s
  }

  /** Everything the provider exposes that changes or reads the session. */
  datatype Command =
    | PlayTrackCmd(track: Track)
    | PlayTrackListCmd(tracks: seq<Track>)
    | NextCmd
    | PreviousCmd
    | ToggleCmd
    | SeekCmd(positionMs: int)
    | ClearCmd
    | SetQueueCmd(queue: seq<Track>)
    | SetFullScreenCmd(value: bool)
    | StatusCmd(status: Status)

  function Step(s: Session, c: Command): Session {
    match c
    case PlayTrackCmd(t) => PlayTrack(s, t)
    case PlayTrackListCmd(ts) => PlayTrackList(s, ts)
    case NextCmd => PlayNextTrack(s)
    case PreviousCmd => PlayPreviousTrack(s)
    case ToggleCmd => TogglePlayPause(s)
    case SeekCmd(p) => SeekToPosition(s, p).0
    case ClearCmd => ClearPlayback(s)
    case SetQueueCmd(q) => SetPlaybackQueue(s, q)
    case SetFullScreenCmd(v) => SetIsFullScreen(s, v)
    case StatusCmd(st) => OnPlaybackStatus(s, st)
  }

  /** The session after running `cs` in order. */
  function Run(s: Session, cs: seq<Command>): Session
    decreases |cs|
  {
    if |cs| == 0 then s else Run(Step(s, cs[0]), cs[1..])
  }

  /** Every command keeps the session consistent. */
  lemma StepKeepsConsistent(s: Session, c: Command)
    requires Consistent(s)
    ensures Consistent(Step(s, c))
  {
  }

  /** From the initial state, any sequence of commands leaves the session
      consistent: a sound is loaded exactly when a track is current, and
      only a current track plays. */
  lemma {:induction false} RunKeepsConsistent(s: Session, cs: seq<Command>)
    requires Consistent(s)
    ensures Consistent(Run(s, cs))
    decreases |cs|
  {
    if |cs| > 0 {
      StepKeepsConsistent(s, cs[0]);
      RunKeepsConsistent(Step(s, cs[0]), cs[1..]);
    }
  }

  lemma ReachableIsConsistent(cs: seq<Command>)
    ensures Consistent(Run(Initial, cs))
  {
    RunKeepsConsistent(Initial, cs);
  }

  /** Commands that keep the cursor inside the queue: all of them except the
      raw queue setter and a list play with an empty list. */
  predicate KeepsCursor(c: Command) {
    !c.SetQueueCmd? && !(c.PlayTrackListCmd? && |c.tracks| == 0)
  }

  /** Next and previous keep a valid cursor valid, and so does every other
      command that keeps the cursor. */
  lemma StepKeepsCursor(s: Session, c: Command)
    requires CursorInQueue(s) && KeepsCursor(c)
    ensures CursorInQueue(Step(s, c))
  {
  }

  lemma {:induction false} RunKeepsCursor(s: Session, cs: seq<Command>)
    requires CursorInQueue(s)
    requires forall i :: 0 <= i < |cs| ==> KeepsCursor(cs[i])
    ensures CursorInQueue(Run(s, cs))
    decreases |cs|
  {
    if |cs| > 0 {
      StepKeepsCursor(s, cs[0]);
      RunKeepsCursor(Step(s, cs[0]), cs[1..]);
    }
  }

  /** The cursor points into the queue whenever the queue is non-empty. */
  predicate CursorValid(s: Session) {
    |s.queue| == 0 || s.index < |s.queue|
  }

  /** Every command except the raw queue setter keeps the cursor valid; a list
      play with an empty list leaves an empty queue, which is valid too. */
  lemma StepKeepsCursorValid(s: Session, c: Command)
    requires CursorValid(s) && !c.SetQueueCmd?
    ensures CursorValid(Step(s, c))
  {
  }

  lemma {:induction false} RunKeepsCursorValid(s: Session, cs: seq<Command>)
    requires CursorValid(s)
    requires forall i :: 0 <= i < |cs| ==> !cs[i].SetQueueCmd?
    ensures CursorValid(Run(s, cs))
    decreases |cs|
  {
    if |cs| > 0 {
      StepKeepsCursorValid(s, cs[0]);
      RunKeepsCursorValid(Step(s, cs[0]), cs[1..]);
    }
  }

  /** From the initial state, any run that does not use the raw queue setter
      keeps the cursor inside a non-empty queue. */
  lemma ReachableCursorValid(cs: seq<Command>)
    requires forall i :: 0 <= i < |cs| ==> !cs[i].SetQueueCmd?
    ensures CursorValid(Run(Initial, cs))
  {
    RunKeepsCursorValid(Initial, cs);
  }

  /** The raw queue setter can leave the cursor outside the queue. */
  lemma SetQueueCanStrandCursor(a: Track, b: Track)
    ensures var s := PlayNextTrack(PlayTrackList(Initial, [a, b]));
      && CursorInQueue(s)
      && !CursorInQueue(SetPlaybackQueue(s, [a]))
  {
  }

  /** Toggling twice restores the session. */
  lemma ToggleTwice(s: Session)
    ensures TogglePlayPause(TogglePlayPause(s)) == s
  {
  }

  /** Clearing twice is clearing once. */
  lemma ClearIdempotent(s: Session)
    ensures ClearPlayback(ClearPlayback(s)) == ClearPlayback(s)
  {
  }

  /** After a lone `playTrack` with an empty queue, `playNextTrack` clears. */
  lemma NextAfterLonePlayClears(t: Track)
    ensures PlayNextTrack(PlayTrack(Initial, t)) == ClearPlayback(PlayTrack(Initial, t))
    ensures PlayNextTrack(PlayTrack(Initial, t)).current == None
  {
  }

  /** On an empty session, toggle and seek change nothing, and next leaves it
      empty once the queue is exhausted. */
  lemma EmptySessionCommandsStayEmpty(s: Session, positionMs: int)
    requires Consistent(s) && s.current == None
    ensures TogglePlayPause(s) == s
    ensures SeekToPosition(s, positionMs) == (s, None)
    ensures s.index + 1 >= |s.queue| ==>
      PlayNextTrack(s).current == None && !PlayNextTrack(s).playing
  {
  }

  /** Clearing keeps the queue, so `playNextTrack` on a cleared session whose
      cursor is not at the end resumes the old queue instead of staying empty. */
  lemma NextAfterClearResumesQueue(a: Track, b: Track)
    ensures var cleared := ClearPlayback(PlayTrackList(Initial, [a, b]));
      && cleared.current == None
      && PlayNextTrack(cleared).current == Some(b)
      && PlayNextTrack(cleared).playing
  {
  }

  /** Playing `[a, b]`: when `a` finishes, `b` becomes current at cursor 1;
      when `b` finishes, the session is empty. */
  lemma AutoAdvanceScenario(a: Track, b: Track, end: nat)
    ensures var finished := Status(true, Some(end), Some(end), true);
      var s1 := PlayTrackList(Initial, [a, b]);
      var s2 := OnPlaybackStatus(s1, finished);
      var s3 := OnPlaybackStatus(s2, finished);
      && s1.current == Some(a) && s1.playing
      && s2.current == Some(b) && s2.playing && s2.index == 1
      && s3.current == None && !s3.playing && !s3.soundLoaded
  {
  }

  /** The status callback as the code builds it. `playTrack` attaches a
      closure made in the render that called it, so a natural end decides
      from that render's `captured` queue, cursor and sound, while the state
      setters act on the live session `s`. A sound started by that advance
      gets its callback from the same render, so `captured` never moves on. */
  function OnPlaybackStatusAsWritten(captured: Session, s: Session, st: Status): (r: Session)
    ensures !st.isLoaded ==> r == s
    ensures st.isLoaded && !st.didJustFinish ==>
      r == s.(position := st.positionMillis.GetOr(0), duration := st.durationMillis.GetOr(0))
    ensures st.isLoaded && st.didJustFinish && captured.index + 1 < |captured.queue| ==>
      && r.current == Some(captured.queue[captured.index + 1])
      && r.index == captured.index + 1 && r.queue == s.queue
      && r.soundLoaded && r.playing
    ensures st.isLoaded && st.didJustFinish && captured.index + 1 >= |captured.queue| ==>
      && r.current == None && !r.playing && r.queue == s.queue && r.index == s.index
      && (r.soundLoaded <==> s.soundLoaded && !captured.soundLoaded)
    ensures st.isLoaded ==>
      && r.position == st.positionMillis.GetOr(0) && r.duration == st.durationMillis.GetOr(0)
      && r.fullScreen == s.fullScreen
  {
    if st.isLoaded then
      var reported := s.(position := st.positionMillis.GetOr(0), duration := st.durationMillis.GetOr(0));
      if !st.didJustFinish then reported
      else if captured.index < |captured.queue| - 1 then
        var next := captured.index + 1;
        PlayTrack(reported.(index := next), captured.queue[next])
      else
        // The captured `clearPlayback` releases the sound only when the
        // captured render had one.
        reported.(soundLoaded := if captured.soundLoaded then false else reported.soundLoaded,
                  current := None, playing := false)
    else
      s
  }

  /** When nothing changed since the callback was made, the callback as
      written and the idealised one agree. */
  lemma AsWrittenAgreesOnFreshCapture(s: Session, st: Status)
    ensures OnPlaybackStatusAsWritten(s, s, st) == OnPlaybackStatus(s, st)
  {
  }

  /** A lone `playTrack` on a fresh provider: the callback was made while no
      sound was set, so the natural end clears the track but keeps the sound,
      and the session is no longer consistent. The idealised callback keeps
      it consistent. */
  lemma StaleCallbackLeavesSoundWithoutTrack(t: Track, end: nat)
    ensures var finished := Status(true, Some(end), Some(end), true);
      var s1 := PlayTrack(Initial, t);
      var s2 := OnPlaybackStatusAsWritten(Initial, s1, finished);
      && Consistent(s1)
      && s2.soundLoaded && s2.current == None
      && !Consistent(s2)
      && Consistent(OnPlaybackStatus(s1, finished))
  {
  }

  /** `playTrackList([a, b])` on a fresh provider: the callback was made while
      the queue was still empty, so the end of `a` stops playback instead of
      starting `b`. */
  lemma StaleCallbackDropsQueue(a: Track, b: Track, end: nat)
    ensures var finished := Status(true, Some(end), Some(end), true);
      var s1 := PlayTrackList(Initial, [a, b]);
      && OnPlaybackStatusAsWritten(Initial, s1, finished).current == None
      && OnPlaybackStatus(s1, finished).current == Some(b)
  {
  }

  /** Playing `[a, b]` again from a render where `[a, b]` was already queued
      at cursor 0: every natural end decides from cursor 0, so `b` starts
      again each time it finishes instead of playback stopping. */
  lemma StaleCallbackRepeatsLastTrack(a: Track, b: Track, end: nat)
    ensures var finished := Status(true, Some(end), Some(end), true);
      var captured := PlayTrackList(Initial, [a, b]);
      var s1 := PlayTrackList(captured, [a, b]);
      var s2 := OnPlaybackStatusAsWritten(captured, s1, finished);
      var s3 := OnPlaybackStatusAsWritten(captured, s2, finished);
      && s2.current == Some(b) && s2.index == 1
      && s3.current == Some(b) && s3.playing && s3.index == 1
      && OnPlaybackStatus(s2, finished).current == None
  {
  }
}

=== FILE: playlist_modal.dfy ===
/** The "add to playlist" sheet: where a track goes when a playlist is picked,
    and how a playlist's cover tiles are laid out. */
module PlaylistModal {
  import opened Wrappers
  import opened Tracks
  import Payloads
  import LikedTracks

  datatype Playlist = Playlist(id: int, title: string)

  datatype Notice = NoNotice | AlreadyLiked | AddedTo(title: string)

  /** The effects of picking a playlist: the liked-songs state afterwards, the
      save request the sheet posts itself, whether it closed, and the notice. */
  datatype AddResult = AddResult(
    likes: LikedTracks.Likes,
    post: Option<Payloads.SavePayload>,
    closed: bool,
    notice: Notice)

  /** `addToPlaylist`. "Liked Songs" (id 0) goes through the liked-songs
      context, skipping a track already liked; any other playlist gets one
      save request, and the sheet closes when it succeeds. `likeServerOk` and
      `postOk` are the server's answers. */
  function AddToPlaylist(
    likes: LikedTracks.Likes, track: Track, playlist: Playlist, likeServerOk: bool, postOk: bool
  ): (r: AddResult)
    ensures playlist.id == Payloads.LikedPlaylistId && LikedTracks.IsLiked(likes.songs, track.id) ==>
      r == AddResult(likes, None, true, AlreadyLiked)
    ensures playlist.id == Payloads.LikedPlaylistId && !LikedTracks.IsLiked(likes.songs, track.id) ==>
      && r.likes == LikedTracks.AddSongToLikes(likes, track, likeServerOk)
      && r.likes.songs == likes.songs + [track]
      && r.post == None && r.closed
    ensures playlist.id != Payloads.LikedPlaylistId ==>
      && r.post == Some(Payloads.SaveTrackPayload(playlist.id, track))
      && r.likes == likes
      && (r.closed <==> postOk)
      && (r.notice == if postOk then AddedTo(playlist.title) else NoNotice)
  {
    if playlist.id == Payloads.LikedPlaylistId then
      if LikedTracks.IsLiked(likes.songs, track.id) then
        AddResult(likes, None, true, AlreadyLiked)
      else
        AddResult(LikedTracks.AddSongToLikes(likes, track, likeServerOk), None, true, NoNotice)
    else
      var payload := Payloads.SaveTrackPayload(playlist.id, track);
      if postOk then
        // `addToPlaylist` re-checks for "Liked Songs" after the save; that case returned above.
        var after := if playlist.id == Payloads.LikedPlaylistId
                     then LikedTracks.AddSongToLikes(likes, track, likeServerOk) else likes;
        AddResult(after, Some(payload), true, AddedTo(playlist.title))
      else
        AddResult(likes, Some(payload), false, NoNotice)
  }

  /** Picking "Liked Songs" never duplicates a like: afterwards the track is
      liked, and it is in the list once more only if it was not liked before. */
  lemma LikedSongsPickNeverDuplicates(likes: LikedTracks.Likes, track: Track, playlist: Playlist, ok1: bool, ok2: bool)
    requires playlist.id == Payloads.LikedPlaylistId
    ensures var r := AddToPlaylist(likes, track, playlist, ok1, ok2);
      && LikedTracks.IsLiked(r.likes.songs, track.id)
      && |r.likes.songs| == |likes.songs| + (if LikedTracks.IsLiked(likes.songs, track.id) then 0 else 1)
  {
    LikedTracks.IsLikedAppend(likes.songs, track, track.id);
  }

  /** How a playlist cover shows its track images. */
  datatype Thumbnail = FullImage(url: string) | Grid(urls: seq<string>)

  /** `PlaylistThumbnail`: one image fills the cover; two or three are
      repeated to fill a 2x2 grid; more show their first four. */
  function PlaylistThumbnail(urls: seq<string>): (r: Thumbnail)
    ensures r.FullImage? <==> |urls| == 1
    ensures |urls| == 1 ==> r.url == urls[0]
    ensures |urls| == 0 ==> r == Grid([])
    ensures |urls| >= 2 ==> r.Grid? && |r.urls| == 4
    ensures r.Grid? ==> forall i :: 0 <= i < |r.urls| ==> r.urls[i] in urls
    ensures r.Grid? ==> forall i :: 0 <= i < |urls| && i < 4 ==> urls[i] in r.urls
    ensures r.Grid? && 2 <= |urls| ==> r.urls[..2] == urls[..2]
    ensures |urls| >= 4 ==> r.urls == urls[..4]
    ensures |urls| == 2 ==> r == Grid([urls[0], urls[1], urls[1], urls[0]])
    ensures |urls| == 3 ==> r == Grid([urls[0], urls[1], urls[2], urls[0]])
  {
    if |urls| == 1 then FullImage(urls[0])
    else if |urls| == 2 then Grid([urls[0], urls[1], urls[1], urls[0]])
    else if |urls| == 3 then Grid([urls[0], urls[1], urls[2], urls[0]])
    else Grid(urls[..if |urls| < 4 then |urls| else 4])
  }
}

=== FILE: recommendation.dfy ===
/** The recommendation screen: the play guards, the local like toggle, the
    duration label, and the save request sent when the screen mounts. */
module Recommendation {
  import opened Wrappers
  import Seqs
  import Text
  import opened Tracks
  import Payloads
  import Playback

  /** The layout's own state: the highlighted track. The local liked ids are
      the separate list `HandleLike` works on. */
  datatype Layout = Layout(selected: Option<Track>)

  /** `handlePlay`'s effects: the new layout and session, and whether the
      "playback restricted" notice was shown. */
  datatype PlayResult = PlayResult(layout: Layout, session: Playback.Session, restrictedNotice: bool)

  /** A track the audio engine can be given: its preview URL is truthy. */
  predicate HasPreview(t: Track) {
    t.previewUrl != ""
  }

  /** `handlePlay`: a track without a preview only shows the notice; otherwise
      it becomes the selected track and `playTrack` starts it. */
  function HandlePlay(l: Layout, s: Playback.Session, t: Track): (r: PlayResult)
    ensures !HasPreview(t) ==> r.layout == l && r.session == s && r.restrictedNotice
    ensures HasPreview(t) ==>
      && r.layout == l.(selected := Some(t))
      && r.session == Playback.PlayTrack(s, t)
      && !r.restrictedNotice
    ensures r.session != s ==> HasPreview(t) && r.session.current == Some(t)
  {
    if !HasPreview(t) then PlayResult(l, s, true)
    else PlayResult(l.(selected := Some(t)), Playback.PlayTrack(s, t), false)
  }

  /** The tracks with a preview, in their original order. */
  function PlayableTracks(tracks: seq<Track>): (r: seq<Track>)
    ensures |r| <= |tracks|
    ensures forall i :: 0 <= i < |r| ==> HasPreview(r[i]) && r[i] in tracks
    ensures forall i :: 0 <= i < |tracks| && HasPreview(tracks[i]) ==> tracks[i] in r
  {
    Seqs.Filter(tracks, HasPreview)
  }

  /** Selecting playable tracks keeps their order: the playable tracks of a
      concatenation are those of the first part followed by those of the second. */
  lemma PlayableTracksKeepOrder(a: seq<Track>, b: seq<Track>)
    ensures PlayableTracks(a + b) == PlayableTracks(a) + PlayableTracks(b)
  {
    Seqs.FilterConcat(a, b, HasPreview);
  }

  /** A list of playable tracks is queued as it is. */
  lemma PlayableTracksOfPlayable(tracks: seq<Track>)
    requires forall i :: 0 <= i < |tracks| ==> HasPreview(tracks[i])
    ensures PlayableTracks(tracks) == tracks
  {
    Seqs.FilterKeepsAll(tracks, HasPreview);
  }

  /** `handlePlayAll`: queue and play the playable tracks, or do nothing when
      there are none, so `playTrackList` never sees an empty list. */
  function HandlePlayAll(s: Playback.Session, tracks: seq<Track>): (r: Playback.Session)
    ensures |PlayableTracks(tracks)| == 0 ==> r == s
    ensures |PlayableTracks(tracks)| > 0 ==>
      r == Playback.PlayTrackList(s, PlayableTracks(tracks))
    ensures |PlayableTracks(tracks)| > 0 ==>
      && |r.queue| > 0 && r.index == 0 && r.current == Some(r.queue[0]) && r.playing
      && (forall i :: 0 <= i < |r.queue| ==> HasPreview(r.queue[i]))
  {
    var playable := PlayableTracks(tracks);
    if |playable| > 0 then Playback.PlayTrackList(s, playable) else s
  }

  /** `handleLike`: drop every copy of a liked id, or append an unliked one. */
  function HandleLike(ids: seq<string>, id: string): (r: seq<string>)
    ensures (id in r) <==> (id !in ids)
    ensures id !in ids ==> r == ids + [id]
    ensures id in ids ==> r == Seqs.Filter(ids, (x: string) => x != id)
    ensures forall x :: x != id ==> (x in r <==> x in ids)
  {
    if id in ids then Seqs.Filter(ids, (x: string) => x != id) else ids + [id]
  }

  /** Liking and then unliking an id restores the list. */
  lemma HandleLikeTwice(ids: seq<string>, id: string)
    requires id !in ids
    ensures HandleLike(HandleLike(ids, id), id) == ids
  {
    var p := (x: string) => x != id;
    Seqs.FilterConcat(ids, [id], p);
    Seqs.FilterKeepsAll(ids, p);
    assert Seqs.Filter([id], p) == [];
  }

  /** `formatDuration`: whole minutes, a colon, and the remaining milliseconds
      rounded to the nearest second with halves rounded up (`toFixed(0)`),
      zero-padded below 10. The seconds reach 60 from 59.5 s on. */
  function FormatDuration(ms: nat): (r: string)
    ensures |r| >= 4 && r[|r| - 3] == ':'
    ensures Text.AllDigits(Text.MinutesField(r)) && Text.AllDigits(Text.SecondsField(r))
    ensures Text.MinutesField(r)[0] == '0' ==> Text.MinutesField(r) == "0"
    ensures Text.ParseNat(Text.MinutesField(r)) == ms / 60000
    ensures var sec := Text.ParseNat(Text.SecondsField(r));
      && sec * 1000 <= ms % 60000 + 500 < sec * 1000 + 1000
      && sec <= 60
      && (sec == 60 <==> ms % 60000 >= 59500)
  {
    var minutes := ms / 60000;
    var seconds := (ms % 60000 + 500) / 1000;
    Text.ClockFields(minutes, seconds);
    Text.Clock(minutes, seconds)
  }

  /** The duration label with the carry into the minutes: the duration is
      rounded to the nearest second first, so the seconds field stays below 60. */
  function FormatDurationCarried(ms: nat): (r: string)
    ensures |r| >= 4 && r[|r| - 3] == ':'
    ensures Text.AllDigits(Text.MinutesField(r)) && Text.AllDigits(Text.SecondsField(r))
    ensures Text.MinutesField(r)[0] == '0' ==> Text.MinutesField(r) == "0"
    ensures var total := Text.ParseNat(Text.MinutesField(r)) * 60 + Text.ParseNat(Text.SecondsField(r));
      && Text.ParseNat(Text.SecondsField(r)) < 60
      && total * 1000 <= ms + 500 < total * 1000 + 1000
  {
    var total := (ms + 500) / 1000;
    Text.ClockFields(total / 60, total % 60);
    Text.Clock(total / 60, total % 60)
  }

  /** Both labels agree whenever the seconds do not round up to a full minute. */
  lemma FormatDurationCarriedAgrees(ms: nat)
    requires ms % 60000 < 59500
    ensures FormatDurationCarried(ms) == FormatDuration(ms)
  {
    Text.SplitThenRound(ms, 500);
  }

  /** A 1 min 59.6 s track is labelled `1:60`; carried into the minutes it is `2:00`. */
  lemma FormatDurationShowsSixtySeconds()
    ensures FormatDuration(119600) == "1:60"
    ensures FormatDurationCarried(119600) == "2:00"
  {
    assert 119600 / 60000 == 1 && 119600 % 60000 == 59600;
    assert (59600 + 500) / 1000 == 60;
    assert (119600 + 500) / 1000 == 120 && 120 / 60 == 2 && 120 % 60 == 0;
    assert Text.NatToString(6) == "6";
    assert Text.NatToString(60) == "6" + "0";
    assert Text.Clock(1, 60) == "1:60";
    assert Text.Clock(2, 0) == "2:00";
  }

  /** The recommendation rows for `tracks`, one per track, in order. */
  function RecommendationRows(recommendationId: string, tracks: seq<Track>): (rows: seq<Payloads.RecommendationRow>)
    ensures |rows| == |tracks|
    ensures forall i :: 0 <= i < |tracks| ==>
      rows[i] == Payloads.RecommendationRowOf(recommendationId, tracks[i])
    decreases |tracks|
  {
    if |tracks| == 0 then []
    else
      [Payloads.RecommendationRowOf(recommendationId, tracks[0])]
      + RecommendationRows(recommendationId, tracks[1..])
  }

  /** What mounting the recommendation screen does: the save request it
      posts, if any, and the tracks it hands to the layout. */
  datatype Mounted = Mounted(saveRequest: Option<seq<Payloads.RecommendationRow>>, layoutTracks: seq<Track>)

  /** Mounting posts the rows unless the track list or the recommendation id
      is empty; whatever the server answers, the layout gets the tracks as given. */
  function MountRecommendationTracks(tracks: seq<Track>, recommendationId: string): (r: Mounted)
    ensures r.saveRequest.None? <==> |tracks| == 0 || recommendationId == ""
    ensures r.saveRequest.Some? ==>
      && |r.saveRequest.value| == |tracks|
      && forall i :: 0 <= i < |tracks| ==>
           r.saveRequest.value[i] == Payloads.RecommendationRowOf(recommendationId, tracks[i])
    ensures r.layoutTracks == tracks
  {
    var request := if |tracks| == 0 || recommendationId == "" then None
                   else Some(RecommendationRows(recommendationId, tracks));
    Mounted(request, tracks)
  }
}

=== FILE: seqs.dfy ===
/** Sequence helpers shared by the list operations of the client. */
module Seqs {

  /** The elements of `xs` that satisfy `p`, in their original order
      (JavaScript's `Array.prototype.filter`). */
  function Filter<T>(xs: seq<T>, p: T -> bool): (r: seq<T>)
    ensures |r| <= |xs|
    ensures forall i :: 0 <= i < |r| ==> r[i] in xs && p(r[i])
    ensures forall i :: 0 <= i < |xs| && p(xs[i]) ==> xs[i] in r
    decreases |xs|
  {
    if |xs| == 0 then []
    else (if p(xs[0]) then [xs[0]] else []) + Filter(xs[1..], p)
  }

  /** Filtering distributes over concatenation: the kept elements of a prefix
      come before the kept elements of the rest, so relative order is kept. */
  lemma {:induction false} FilterConcat<T>(a: seq<T>, b: seq<T>, p: T -> bool)
    ensures Filter(a + b, p) == Filter(a, p) + Filter(b, p)
    decreases |a|
  {
    if |a| == 0 {
      assert a + b == b;
    } else {
      assert (a + b)[0] == a[0];
      assert (a + b)[1..] == a[1..] + b;
      FilterConcat(a[1..], b, p);
    }
  }

  /** A filter that keeps every element returns the sequence unchanged. */
  lemma {:induction false} FilterKeepsAll<T>(xs: seq<T>, p: T -> bool)
    requires forall i :: 0 <= i < |xs| ==> p(xs[i])
    ensures Filter(xs, p) == xs
    decreases |xs|
  {
    if |xs| > 0 {
      FilterKeepsAll(xs[1..], p);
    }
  }
}

=== FILE: text.dfy ===
/** The JavaScript string operations the client relies on, over `seq<char>`:
    `trim`, `split` on one character, `join`, and decimal rendering of
    non-negative integers, plus the `m:ss` clock both players display. */
module Text {

  /** The characters ECMAScript's `String.prototype.trim` removes: the
      WhiteSpace and LineTerminator productions (tab, vertical tab, form feed,
      space, no-break space, byte-order mark, the Unicode space separators,
      line feed, carriage return, line and paragraph separators). */
  predicate IsWhitespace(c: char) {
    || c == '\t' || c == '\n' || c == '\U{000B}' || c == '\U{000C}' || c == '\r'
    || c == ' ' || c == '\U{00A0}' || c == '\U{1680}'
    || ('\U{2000}' <= c <= '\U{200A}')
    || c == '\U{2028}' || c == '\U{2029}' || c == '\U{202F}' || c == '\U{205F}'
    || c == '\U{3000}' || c == '\U{FEFF}'
  }

  /** `s` neither starts nor ends with whitespace, so `trim` leaves it alone. */
  predicate IsTrimmed(s: string) {
    |s| == 0 || (!IsWhitespace(s[0]) && !IsWhitespace(s[|s| - 1]))
  }

  /** `s` with its leading whitespace removed. */
  function TrimStart(s: string): (r: string)
    ensures |r| <= |s| && r == s[|s| - |r|..]
    ensures |r| > 0 ==> !IsWhitespace(r[0])
    ensures forall i :: 0 <= i < |s| - |r| ==> IsWhitespace(s[i])
    decreases |s|
  {
    if |s| > 0 && IsWhitespace(s[0]) then TrimStart(s[1..]) else s
  }

  /** `s` with its trailing whitespace removed. */
  function TrimEnd(s: string): (r: string)
    ensures |r| <= |s| && r == s[..|r|]
    ensures |r| > 0 ==> !IsWhitespace(r[|r| - 1])
    ensures forall i :: |r| <= i < |s| ==> IsWhitespace(s[i])
    decreases |s|
  {
    if |s| > 0 && IsWhitespace(s[|s| - 1]) then TrimEnd(s[..|s| - 1]) else s
  }

  /** `String.prototype.trim`: the result has no whitespace at either end and
      is what remains of `s` once its whitespace ends are dropped. */
  function Trim(s: string): (r: string)
    ensures IsTrimmed(r)
    ensures |r| <= |s|
    ensures IsTrimmed(s) ==> r == s
  {
    TrimEnd(TrimStart(s))
  }

  /** Trimming removes whitespace from the two ends and nothing else: the
      result is the slice of `s` starting at `k`, and every character before
      `k` or after the slice is whitespace. */
  lemma TrimBounds(s: string) returns (k: nat)
    ensures k + |Trim(s)| <= |s|
    ensures Trim(s) == s[k..k + |Trim(s)|]
    ensures forall i :: 0 <= i < k ==> IsWhitespace(s[i])
    ensures forall i :: k + |Trim(s)| <= i < |s| ==> IsWhitespace(s[i])
  {
    var front := TrimStart(s);
    k := |s| - |front|;
    var r := TrimEnd(front);
    assert front == s[k..];
    assert r == front[..|r|];
    forall i | k + |r| <= i < |s|
      ensures IsWhitespace(s[i])
    {
      assert s[i] == front[i - k];
    }
  }

  /** `s.split(sep)` for a one-character separator: the pieces between the
      separators, in order, empty pieces included. Splitting never yields an
      empty sequence (`"".split(",")` is `[""]`). */
  function Split(s: string, sep: char): (r: seq<string>)
    ensures |r| >= 1
    ensures forall i :: 0 <= i < |r| ==> sep !in r[i]
    decreases |s|
  {
    if |s| == 0 then [""]
    else
      var rest := Split(s[1..], sep);
      if s[0] == sep then [""] + rest
      else [[s[0]] + rest[0]] + rest[1..]
  }

  /** `xs.join(sep)`: the pieces with `sep` between neighbours; `[]` joins to `""`. */
  function Join(xs: seq<string>, sep: string): (r: string)
    ensures |xs| == 0 ==> r == ""
    ensures |xs| == 1 ==> r == xs[0]
    ensures |xs| >= 1 ==> |xs[0]| <= |r| && r[..|xs[0]|] == xs[0]
    decreases |xs|
  {
    if |xs| == 0 then ""
    else if |xs| == 1 then xs[0]
    else xs[0] + sep + Join(xs[1..], sep)
  }

  /** Joining one more piece at the end appends the separator and the piece. */
  lemma {:induction false} JoinAppend(xs: seq<string>, x: string, sep: string)
    requires |xs| >= 1
    ensures Join(xs + [x], sep) == Join(xs, sep) + sep + x
    decreases |xs|
  {
    if |xs| == 1 {
      assert xs + [x] == [xs[0], x];
    } else {
      assert (xs + [x])[1..] == xs[1..] + [x];
      JoinAppend(xs[1..], x, sep);
    }
  }

  /** A string without the separator is one piece. */
  lemma {:induction false} SplitWithoutSeparator(a: string, sep: char)
    requires sep !in a
    ensures Split(a, sep) == [a]
    decreases |a|
  {
    if |a| > 0 {
      SplitWithoutSeparator(a[1..], sep);
      assert [a[0]] + a[1..] == a;
    }
  }

  /** A separator-free prefix followed by the separator becomes the first piece. */
  lemma {:induction false} SplitAfterPiece(a: string, b: string, sep: char)
    requires sep !in a
    ensures Split(a + [sep] + b, sep) == [a] + Split(b, sep)
    decreases |a|
  {
    var s := a + [sep] + b;
    if |a| == 0 {
      assert s[0] == sep && s[1..] == b;
    } else {
      assert s[0] == a[0];
      assert s[1..] == a[1..] + [sep] + b;
      SplitAfterPiece(a[1..], b, sep);
      assert [a[0]] + a[1..] == a;
    }
  }

  /** Splitting a join gives the pieces back, provided there is at least one
      piece and no piece contains the separator. */
  lemma {:induction false} SplitJoin(xs: seq<string>, sep: char)
    requires |xs| >= 1
    requires forall i :: 0 <= i < |xs| ==> sep !in xs[i]
    ensures Split(Join(xs, [sep]), sep) == xs
    decreases |xs|
  {
    if |xs| == 1 {
      SplitWithoutSeparator(xs[0], sep);
    } else {
      SplitJoin(xs[1..], sep);
      SplitAfterPiece(xs[0], Join(xs[1..], [sep]), sep);
      assert [xs[0]] + xs[1..] == xs;
    }
  }

  /** Joining the pieces of a split gives the original string back. */
  lemma {:induction false} JoinSplit(s: string, sep: char)
    ensures Join(Split(s, sep), [sep]) == s
    decreases |s|
  {
    if |s| > 0 {
      var rest := Split(s[1..], sep);
      JoinSplit(s[1..], sep);
      if s[0] == sep {
        assert ([""] + rest)[1..] == rest;
        assert [s[0]] + s[1..] == s;
      } else {
        var r := [[s[0]] + rest[0]] + rest[1..];
        if |rest| == 1 {
          assert [s[0]] + s[1..] == s;
        } else {
          assert r[1..] == rest[1..];
          assert Join(rest, [sep]) == rest[0] + [sep] + Join(rest[1..], [sep]);
          assert [s[0]] + s[1..] == s;
        }
      }
    }
  }

  predicate IsDigit(c: char) {
    '0' <= c <= '9'
  }

  predicate AllDigits(s: string) {
    forall i :: 0 <= i < |s| ==> IsDigit(s[i])
  }

  function DigitChar(d: nat): (c: char)
    requires d < 10
    ensures IsDigit(c)
  {
    "0123456789"[d]
  }

  function DigitValue(c: char): (d: nat)
    requires IsDigit(c)
    ensures d < 10
  {
    c as int - '0' as int
  }

  /** The decimal numeral JavaScript prints for a non-negative integer. */
  function NatToString(n: nat): (r: string)
    ensures |r| >= 1 && AllDigits(r)
    ensures n < 10 <==> |r| == 1
    ensures r[0] == '0' ==> n == 0
    decreases n
  {
    if n < 10 then [DigitChar(n)] else NatToString(n / 10) + [DigitChar(n % 10)]
  }

  /** The value of a numeral. */
  function ParseNat(s: string): nat
    requires AllDigits(s)
    decreases |s|
  {
    if |s| == 0 then 0 else ParseNat(s[..|s| - 1]) * 10 + DigitValue(s[|s| - 1])
  }

  /** Printing a number and reading it back gives the number. */
  lemma {:induction false} ParseNatToString(n: nat)
    ensures ParseNat(NatToString(n)) == n
    decreases n
  {
    var r := NatToString(n);
    if n < 10 {
      assert r[..0] == "";
    } else {
      ParseNatToString(n / 10);
      assert r[..|r| - 1] == NatToString(n / 10);
    }
  }

  /** Rounding `ms` to whole seconds with an `offset` below 1000 and splitting
      into minutes and seconds is the same as splitting first and rounding the
      remainder, as long as the remainder does not round up to a full minute. */
  lemma SplitThenRound(ms: nat, offset: nat)
    requires offset < 1000
    requires ms % 60000 + offset < 60000
    ensures (ms + offset) / 1000 / 60 == ms / 60000
    ensures (ms + offset) / 1000 % 60 == (ms % 60000 + offset) / 1000
  {
    var m := ms / 60000;
    var rem := ms % 60000;
    var q := (rem + offset) / 1000;
    var qr := (rem + offset) % 1000;
    assert ms == m * 60000 + rem;
    assert rem + offset == q * 1000 + qr;
    assert q < 60;
    assert (m * 60 + q) * 1000 == m * 60000 + q * 1000;
    assert ms + offset == (m * 60 + q) * 1000 + qr;
    assert (ms + offset) / 1000 == m * 60 + q;
    assert (m * 60 + q) / 60 == m && (m * 60 + q) % 60 == q;
  }

  /** The `m:ss` display of a minute and second count: the minutes, a colon,
      and the seconds with a `0` put in front of single digits. */
  function Clock(minutes: nat, seconds: nat): string {
    NatToString(minutes) + ":" + (if seconds < 10 then "0" else "") + NatToString(seconds)
  }

  /** The two-digit seconds field of a clock. */
  function SecondsField(c: string): string
    requires |c| >= 2
  {
    c[|c| - 2..]
  }

  /** The minutes field: everything before the colon that precedes the seconds. */
  function MinutesField(c: string): string
    requires |c| >= 3
  {
    c[..|c| - 3]
  }

  /** A clock with fewer than 100 seconds reads back as its minutes and
      seconds: the seconds field is always two digits, preceded by a colon. */
  lemma ClockFields(minutes: nat, seconds: nat)
    requires seconds < 100
    ensures var c := Clock(minutes, seconds);
      && |c| >= 4 && c[|c| - 3] == ':'
      && AllDigits(MinutesField(c)) && AllDigits(SecondsField(c))
      && ParseNat(MinutesField(c)) == minutes
      && ParseNat(SecondsField(c)) == seconds
      && MinutesField(c) == NatToString(minutes)
  {
    var m := NatToString(minutes);
    var c := Clock(minutes, seconds);
    var secs := (if seconds < 10 then "0" else "") + NatToString(seconds);
    assert |secs| == 2;
    assert c == m + ":" + secs;
    assert MinutesField(c) == m;
    assert SecondsField(c) == secs;
    ParseNatToString(minutes);
    ParseNatToString(seconds);
    if seconds < 10 {
      assert secs[..1] == "0";
      assert ParseNat(secs[..1]) == ParseNat("") * 10 + 0;
    } else {
      assert secs[..1] == NatToString(seconds)[..1];
    }
  }
}

=== FILE: tracks.dfy ===
/** The track shapes of the client and the two converters that rebuild a
    track from a backend row whose artists were flattened into
    comma-separated `artistIds` / `artistNames` strings. */
module Tracks {
  import opened Wrappers
  import Text

  datatype Artist = Artist(id: string, name: string)

  datatype Image = Image(url: string)

  datatype Album = Album(id: string, name: string, images: seq<Image>)

  /** A playable item. A missing preview URL is the empty string: the client
      only ever tests it for truthiness. `deleteId` is the backend row id a
      track read back from a playlist carries. */
  datatype Track = Track(
    id: string,
    name: string,
    uri: string,
    previewUrl: string,
    durationMs: nat,
    artists: seq<Artist>,
    album: Album,
    deleteId: Option<int>)

  /** A row of a stored playlist (the backend's `PlaylistTrack`). */
  datatype PlaylistRow = PlaylistRow(
    id: int,
    playlistId: int,
    trackId: string,
    title: string,
    artistIds: string,
    artistNames: string,
    previewUrl: string,
    albumImageUrl: string,
    durationMs: nat)

  /** A row of a stored recommendation (the client's `SpotifyTrack2`). */
  datatype HistoryRow = HistoryRow(
    id: int,
    recommendationId: string,
    trackId: string,
    title: string,
    artistIds: string,
    artistNames: string,
    previewUrl: string,
    albumImageUrl: string,
    durationMs: nat)

  const Separator: char := ','

  const UriPrefix: string := "spotify:track:"

  /** The artist list rebuilt from the two comma-joined columns: one artist per
      comma piece of `artistIds`, paired by position with the piece of
      `artistNames`, or with `""` when the names run out. */
  function ArtistsOf(artistIds: string, artistNames: string): (r: seq<Artist>)
    ensures |r| == |Text.Split(artistIds, Separator)|
    ensures |r| >= 1
    ensures forall i :: 0 <= i < |r| ==> r[i].id == Text.Trim(Text.Split(artistIds, Separator)[i])
    ensures forall i :: 0 <= i < |r| ==>
      r[i].name == (if i < |Text.Split(artistNames, Separator)|
                    then Text.Trim(Text.Split(artistNames, Separator)[i]) else "")
  {
    var ids := Text.Split(artistIds, Separator);
    var names := Text.Split(artistNames, Separator);
    seq(|ids|, i requires 0 <= i < |ids| =>
      Artist(Text.Trim(ids[i]), if i < |names| then Text.Trim(names[i]) else ""))
  }

  /** `convertToSpotifyTrack2`: a playlist row as a track. */
  function FromPlaylistRow(row: PlaylistRow): (t: Track)
    ensures t.id == row.trackId && t.name == row.title
    ensures t.uri == UriPrefix + row.trackId
    ensures t.previewUrl == row.previewUrl && t.durationMs == row.durationMs
    ensures t.artists == ArtistsOf(row.artistIds, row.artistNames) && |t.artists| >= 1
    ensures t.album.id == row.trackId && t.album.name == row.title
    ensures t.album.images == [Image(row.albumImageUrl)]
    ensures t.deleteId == Some(row.id)
  {
    Track(
      row.trackId, row.title, UriPrefix + row.trackId, row.previewUrl, row.durationMs,
      ArtistsOf(row.artistIds, row.artistNames),
      Album(row.trackId, row.title, [Image(row.albumImageUrl)]),
      Some(row.id))
  }

  /** `convertToSpotifyTrack`: a recommendation-history row as a track. */
  function FromHistoryRow(row: HistoryRow): (t: Track)
    ensures t.id == row.trackId && t.name == row.title
    ensures t.uri == UriPrefix + row.trackId
    ensures t.previewUrl == row.previewUrl && t.durationMs == row.durationMs
    ensures t.artists == ArtistsOf(row.artistIds, row.artistNames) && |t.artists| >= 1
    ensures t.album.id == row.recommendationId && t.album.name == row.title
    ensures t.album.images == [Image(row.albumImageUrl)]
    ensures t.deleteId == Some(row.id)
  {
    Track(
      row.trackId, row.title, UriPrefix + row.trackId, row.previewUrl, row.durationMs,
      ArtistsOf(row.artistIds, row.artistNames),
      Album(row.recommendationId, row.title, [Image(row.albumImageUrl)]),
      Some(row.id))
  }

  /** The playlist row, in any playlist, carrying the same columns as a history row. */
  function AsPlaylistRow(row: HistoryRow, playlistId: int): PlaylistRow {
    PlaylistRow(row.id, playlistId, row.trackId, row.title, row.artistIds, row.artistNames,
                row.previewUrl, row.albumImageUrl, row.durationMs)
  }

  /** The two converters build the same track except for the album id, which
      is the recommendation id for a history row and the track id otherwise. */
  lemma HistoryAgreesWithPlaylist(row: HistoryRow, playlistId: int)
    ensures var h := FromHistoryRow(row);
      var p := FromPlaylistRow(AsPlaylistRow(row, playlistId));
      && h.album.id == row.recommendationId && p.album.id == row.trackId
      && h == p.(album := p.album.(id := row.recommendationId))
  {
  }

  /** `convertplaylistTracksArray`: every row converted, in order. */
  function FromPlaylistRows(rows: seq<PlaylistRow>): (ts: seq<Track>)
    ensures |ts| == |rows|
    ensures forall i :: 0 <= i < |rows| ==> ts[i] == FromPlaylistRow(rows[i])
    decreases |rows|
  {
    if |rows| == 0 then [] else [FromPlaylistRow(rows[0])] + FromPlaylistRows(rows[1..])
  }

  /** `convertSpotifyTrack2Array`: every history row converted, in order. */
  function FromHistoryRows(rows: seq<HistoryRow>): (ts: seq<Track>)
    ensures |ts| == |rows|
    ensures forall i :: 0 <= i < |rows| ==> ts[i] == FromHistoryRow(rows[i])
    decreases |rows|
  {
    if |rows| == 0 then [] else [FromHistoryRow(rows[0])] + FromHistoryRows(rows[1..])
  }

  /** Converting a concatenation converts each part: the array converter is a
      pointwise map that keeps order. */
  lemma FromPlaylistRowsConcat(a: seq<PlaylistRow>, b: seq<PlaylistRow>)
    ensures FromPlaylistRows(a + b) == FromPlaylistRows(a) + FromPlaylistRows(b)
  {
    var l := FromPlaylistRows(a + b);
    var r := FromPlaylistRows(a) + FromPlaylistRows(b);
    assert |l| == |r|;
    forall i | 0 <= i < |l| ensures l[i] == r[i] {
      if i < |a| {
        assert (a + b)[i] == a[i];
      } else {
        assert (a + b)[i] == b[i - |a|];
      }
    }
  }
}

=== FILE: wrappers.dfy ===
/** Optional values: JavaScript's `null`/`undefined` next to a present value. */
module Wrappers {

  datatype Option<+T> = None | Some(value: T) {

    /** The wrapped value, or `default` when there is none (JavaScript's `x ?? d`). */
    function GetOr(default: T): T {
      match this
      case Some(v) => v
      case None => default
    }
  }
}
